=== FILE: README.md ===
# cognitive-compressor: grounding and hashing, modelled in Dafny

This project models the pure core of `cognitive-compressor.py` and
`stigmergic-trace-signaler.py`. Both scripts hold the same logic at the same
line numbers. The core runs as one pipeline:

1. **Canonical encoding** (`json.dumps(..., sort_keys=True, separators=(',', ':'))`).
   - Dict keys are sorted by code point at every depth. Lists keep their order.
   - There is no whitespace.
   - Strings are escaped with ASCII-only output (`ensure_ascii=True`).
2. **Metadata stripping.** `generate_hash` pops the three top-level keys
   `temporal_grounding`, `integrity_hash` and `instance_hash`.
3. **Hashing.** The text is encoded as UTF-8, digested by SHA-256 and
   rendered as lowercase hexadecimal.
4. **Grounding.** `get_core_logic` copies the document, stamps a timestamp,
   adds the integrity hash (metadata excluded) and then the instance hash
   (nothing excluded).
5. **String helpers.** Around the pipeline sit the trace file name, the
   one-line trace record, the logic file name and the repository name read
   back from it.

JSON documents are an immutable datatype (`JsonValue.Json`).
- A dict is a sequence of members in insertion order.
- Keys are pairwise distinct, as in every dict `json.load` returns.
- `d[k] = v` and `d.pop(k, None)` keep Python's behaviour: replace in place or
  append, and remove the member.

SHA-256 is a parameter `sha: seq<byte> -> Digest`: any function to 32 bytes.
The clock is also a parameter: the timestamp string `ts`. Two partners give
the encoder its meaning:
- **A JSON reader.** The canonical text reads back, which makes the writer
  injective. So two documents have the same canonical text exactly when they
  are the same dictionary tree up to member order (`Canonical.Equiv`).
- **A lexical scanner.** It shows what the text is outside string literals.

Modules, in dependency order:

| module | file | what it holds |
|---|---|---|
| `Wrappers` | wrappers.dfy | `Option` and `Result` |
| `KeyOrder` | keyorder.dfy | code-point order on strings |
| `JsonValue` | jsonvalue.dfy | the JSON datatype and dict operations |
| `StringEscape` | escape.dfy | string literals and their decoder |
| `IntText` | inttext.dfy | integer literals and their decoder |
| `Canonical` | canonical.dfy | key sorting, equivalence, the writer, `Dumps` |
| `JsonParser` | parser.dfy | the reader and the round-trip theorems |
| `Lexical` | lexical.dfy | the text outside string literals |
| `Hashing` | hashing.dfy | stripping, UTF-8, hex rendering, `generate_hash` |
| `Grounding` | grounding.dfy | `get_core_logic` |
| `Traces` | traces.dfy | trace file name, trace line, logic file names, repository names |

Two behaviours of the code are worth stating plainly, because the model
follows them:
- **The instance hash.** Line 75 hashes the instance with nothing excluded.
  So a stale `instance_hash` carried by the source document is part of the
  hashed text (`Grounding.StaleInstanceHashIsHashed`).
- **The trace file.** Line 114 opens the trace file with mode `'w'`, which
  silently overwrites an existing file. No exclusive creation is modelled.
  `Traces.TraceFileNameSameIff` says exactly when two groundings share a file.

## Model

| member | source | states |
|---|---|---|
| JsonValue.Lookup | stigmergic-trace-signaler.py:110 | `d[k]` finds a value exactly when `k` is a key of the dict, and the value found belongs to a member with that key |
| JsonValue.LookupMember | stigmergic-trace-signaler.py:115 | in a dict with distinct keys, every member is what its own key looks up |
| JsonValue.Set | stigmergic-trace-signaler.py:73-75 | `d[k] = v`: the key set gains `k`, `k` maps to `v`, every other key keeps its value, and keys stay distinct |
| JsonValue.SetAppends | stigmergic-trace-signaler.py:73-75 | assigning a key the dict lacks appends exactly one member at the end |
| JsonValue.Pop | stigmergic-trace-signaler.py:63-65 | `d.pop(k, None)`: the key set loses `k`, the other members are kept, and keys stay distinct |
| JsonValue.DistinctKeysAt | stigmergic-trace-signaler.py:54 | no key occurs twice, stated over positions |
| KeyOrder.LessTransitive | stigmergic-trace-signaler.py:67 | code-point order on keys (a proper prefix sorts first) is transitive |
| KeyOrder.LessTotal | stigmergic-trace-signaler.py:67 | of two different keys, one sorts first |
| KeyOrder.LessIrreflexive | stigmergic-trace-signaler.py:67 | no key sorts before itself |
| KeyOrder.LessPrefix | stigmergic-trace-signaler.py:67 | a key that is a proper prefix of another sorts first |
| KeyOrder.LessFirstDifference | stigmergic-trace-signaler.py:67 | at the first position where two keys differ, the key with the smaller code point there sorts first, and only then |
| Canonical.SortMembers | stigmergic-trace-signaler.py:67 | `sort_keys` on one dict: the result is ordered by key and is a permutation of the members |
| Canonical.SortMembersKeys | stigmergic-trace-signaler.py:67 | sorting keeps the key set and the distinctness of keys |
| Canonical.SortMembersAscending | stigmergic-trace-signaler.py:67 | a dict with distinct keys is written in strictly ascending key order |
| Canonical.AscendingUnique | stigmergic-trace-signaler.py:67 | two strictly ascending member lists with the same members are equal, so the sorted order is unique |
| Canonical.SortKeysCanonical | stigmergic-trace-signaler.py:67 | after sorting, every dict at every depth has strictly ascending keys |
| Canonical.SortKeysEquiv | stigmergic-trace-signaler.py:67 | sorting keys changes no key, value or list element, only member order |
| Canonical.EquivSortKeysEqual | stigmergic-trace-signaler.py:67 | two documents that are the same dictionary tree sort to the identical tree |
| Canonical.EquivSymmetric | stigmergic-trace-signaler.py:67 | being the same dictionary tree is symmetric |
| Canonical.EquivTransitive | stigmergic-trace-signaler.py:67 | being the same dictionary tree is transitive |
| Canonical.SortKeys | stigmergic-trace-signaler.py:67 | `sort_keys=True` keeps each value's kind and each list's and dict's length, and leaves scalars alone; `SortKeysCanonical`, `SortKeysEquiv` and `EquivSortKeysEqual` state the order it produces |
| Canonical.Serialize | stigmergic-trace-signaler.py:67 | the compact writer's text is never empty and is printable ASCII |
| Canonical.Dumps | stigmergic-trace-signaler.py:67 | `json.dumps(content, sort_keys=True, separators=(',',':'))` is non-empty printable ASCII; `JsonParser.DumpsReadsBack` and `JsonParser.DumpsEqualIffEquiv` state what it means |
| Canonical.DumpsOfEquiv | stigmergic-trace-signaler.py:67 | documents that are the same dictionary tree have the same canonical text |
| Canonical.DumpsIgnoresInsertionOrder | stigmergic-trace-signaler.py:67 | a dict built by inserting the same members in another order has the same canonical text |
| StringEscape.EscapeChar | stigmergic-trace-signaler.py:67 | a character passes unescaped exactly when it is printable ASCII other than `"` and `\`; exactly `"`, `\`, newline, carriage return, tab, backspace and form feed get a two-character escape; characters beyond the Basic Multilingual Plane get twelve characters and the rest six, all of them `\u` followed by four lowercase hex digits |
| StringEscape.Hex4RoundTrip | stigmergic-trace-signaler.py:67 | the four lowercase hex digits of a `\uXXXX` escape read back to the code unit |
| StringEscape.ParseEscapedAstral | stigmergic-trace-signaler.py:67 | a character beyond the Basic Multilingual Plane is written as a surrogate pair that decodes back to it |
| StringEscape.ParseEscapedChar | stigmergic-trace-signaler.py:67 | the escaped form of every character decodes back to that character |
| StringEscape.EscapeRoundTrip | stigmergic-trace-signaler.py:67 | an escaped string body followed by a closing quote decodes back to the string and leaves what follows |
| StringEscape.EscapeBody | stigmergic-trace-signaler.py:67 | the escaped body of a string is printable ASCII and no shorter than the string; `EscapeRoundTrip` reads it back |
| StringEscape.Quote | stigmergic-trace-signaler.py:67 | a key or string value is written between double quotes in printable ASCII; `EscapeRoundTrip` and `QuoteInjective` pin the text |
| StringEscape.QuoteInjective | stigmergic-trace-signaler.py:67 | different strings are written as different literals |
| IntText.NatToString | stigmergic-trace-signaler.py:67 | a natural number is written as decimal digits with no leading zero |
| IntText.IntToString | stigmergic-trace-signaler.py:67 | an integer is written as an optional `-`, present exactly for negatives, followed by digits; `IntRoundTrip` reads the value back |
| IntText.IntRoundTrip | stigmergic-trace-signaler.py:67 | an integer's decimal text reads back to the integer and leaves what follows |
| IntText.IntToStringInjective | stigmergic-trace-signaler.py:67 | different integers are written differently |
| JsonParser.ParseSerialize | stigmergic-trace-signaler.py:67 | the compact text of any value reads back to that value, leaving what follows the value |
| JsonParser.SerializeInjective | stigmergic-trace-signaler.py:67 | different trees never share a compact text |
| JsonParser.DumpsReadsBack | stigmergic-trace-signaler.py:67 | the canonical text reads back as a document that is the same dictionary tree as the original |
| JsonParser.DumpsEqualIffEquiv | stigmergic-trace-signaler.py:67 | for well-formed documents, the canonical texts are equal exactly when the documents are the same dictionary tree |
| JsonParser.ListOrderKept | stigmergic-trace-signaler.py:67 | lists are never sorted: two lists have the same canonical text exactly when they agree position by position |
| Lexical.OutsideSerialize | stigmergic-trace-signaler.py:67 | outside string literals, a value's text is its skeleton: `,` between items and members, `:` after each key |
| Lexical.Skeleton | stigmergic-trace-signaler.py:67 | the skeleton holds no whitespace character |
| Lexical.DumpsHasNoWhitespace | stigmergic-trace-signaler.py:67 | the canonical text has no whitespace outside string literals |
| Hashing.StripMetadata | stigmergic-trace-signaler.py:61-65 | the three pops keep exactly the members whose key is not a metadata key, and every other key's value |
| Hashing.StripIsFilter | stigmergic-trace-signaler.py:62-65 | the three pops are the filter that drops metadata members and keeps the rest in order |
| Hashing.WithoutMetadataSet | stigmergic-trace-signaler.py:62-65 | assigning a metadata key does not change the stripped dict |
| Hashing.WithoutMetadataPop | stigmergic-trace-signaler.py:62-65 | removing a metadata key does not change the stripped dict |
| Hashing.PopReordered | stigmergic-trace-signaler.py:63-65 | popping a key from two reorderings of a dict leaves two reorderings |
| Hashing.StripWellFormed | stigmergic-trace-signaler.py:61-65 | stripping keeps keys distinct at every depth |
| Hashing.Utf8Char | stigmergic-trace-signaler.py:68 | UTF-8 gives one byte exactly for characters below 0x80, and that byte is the code point |
| Hashing.Utf8Encode | stigmergic-trace-signaler.py:68 | `.encode('utf-8')` gives at least one byte per character; `Utf8EncodeChar` and `Utf8EncodeAppend` fix the bytes as each character's `Utf8Char` bytes in order |
| Hashing.Utf8EncodeChar | stigmergic-trace-signaler.py:68 | a single character encodes to exactly its own UTF-8 bytes |
| Hashing.Utf8EncodeAppend | stigmergic-trace-signaler.py:68 | encoding a concatenation encodes each part in turn |
| Hashing.AsciiEncoding | stigmergic-trace-signaler.py:68 | ASCII text encodes to one byte per character, equal to its code point |
| Hashing.AsciiEncodingInjective | stigmergic-trace-signaler.py:68 | different ASCII texts encode to different bytes |
| Hashing.HexDigest | stigmergic-trace-signaler.py:68 | `hexdigest()` gives two lowercase hex digits per byte |
| Hashing.HexRoundTrip | stigmergic-trace-signaler.py:68 | the hex rendering decodes back to the digest bytes |
| Hashing.HexDigestInjective | stigmergic-trace-signaler.py:68 | different digests render differently |
| Hashing.HashText | stigmergic-trace-signaler.py:67 | the text handed to the encoder is printable ASCII |
| Hashing.HashInput | stigmergic-trace-signaler.py:67-68 | the bytes hashed are one per character of the canonical text, all printable ASCII |
| Hashing.GenerateHash | stigmergic-trace-signaler.py:59-68 | the result is 64 lowercase hex characters, and they decode to SHA-256 of the encoded canonical text |
| Hashing.HashInputEqualIffEquiv | stigmergic-trace-signaler.py:61-68 | two calls hash the same bytes exactly when the dicts written out are the same dictionary tree |
| Hashing.HashIgnoresMetadataSet | stigmergic-trace-signaler.py:61-68 | with metadata excluded, adding or changing a top-level metadata key leaves the digest unchanged |
| Hashing.HashIgnoresMetadataPop | stigmergic-trace-signaler.py:61-68 | with metadata excluded, removing a top-level metadata key leaves the digest unchanged |
| Hashing.HashIgnoresInsertionOrder | stigmergic-trace-signaler.py:61-68 | a dict with the same members in another insertion order has the same digest, with or without metadata |
| Hashing.EquivLookup | stigmergic-trace-signaler.py:67 | in two dicts that are the same dictionary tree, the values under one key are the same tree |
| Hashing.PopShortens | stigmergic-trace-signaler.py:63-65 | popping a key the dict holds removes at least one member |
| Hashing.PopUnchanged | stigmergic-trace-signaler.py:63-65 | popping a key the dict lacks changes nothing |
| Hashing.NestedMetadataIsHashed | stigmergic-trace-signaler.py:62-65 | stripping is top-level only: removing a nested dict's `integrity_hash` changes the bytes hashed |
| Grounding.SetMembers | cognitive-compressor.py:73-75 | after an assignment, every member was already present or is the new one |
| Grounding.SetSame | cognitive-compressor.py:73-75 | assigning a key the value it already has changes nothing |
| Grounding.SetSet | cognitive-compressor.py:73-75 | a second assignment to a key overrides the first |
| Grounding.PopSet | cognitive-compressor.py:73-75 | removing a key just assigned gives the dict with that key removed |
| Grounding.Stamp | cognitive-compressor.py:72-74 | after the timestamp and integrity hash are set, both metadata values are as assigned, the integrity hash is that of the source, and every other key is unchanged |
| Grounding.Ground | cognitive-compressor.py:70-76 | the keys are the source keys plus exactly the three metadata keys. Every other key keeps its source value. `temporal_grounding` is the timestamp and `integrity_hash` is the source's stripped hash. The instance hash is a 64-character string |
| Grounding.InstanceHashCoversInstance | cognitive-compressor.py:75 | with no source `instance_hash`, the instance hash is the unstripped hash of the returned instance without that key |
| Grounding.StaleInstanceHashIsHashed | cognitive-compressor.py:75 | with a source `instance_hash`, the instance hash is the unstripped hash of the instance carrying the stale source value |
| Grounding.GroundRestored | cognitive-compressor.py:75 | putting the source's `instance_hash` back into the result gives the document that was hashed |
| Grounding.GroundWellFormed | cognitive-compressor.py:72-75 | grounding keeps keys distinct at every depth |
| Grounding.InstanceHashInputDependsOnTimestamp | cognitive-compressor.py:73-75 | groundings at two different timestamps hash different bytes for the instance hash |
| Grounding.GetCoreLogic | cognitive-compressor.py:70-76 | a dict grounds successfully, any other document fails, and the result has the source keys plus the three metadata keys with other values unchanged |
| Traces.SafeTimestamp | stigmergic-trace-signaler.py:30 | every `:` becomes `-`, every other character and the length are unchanged |
| Traces.SafeTimestampHasNoColon | stigmergic-trace-signaler.py:30 | the safe timestamp contains no `:` |
| Traces.SafeTimestampIdempotent | stigmergic-trace-signaler.py:30 | making a timestamp safe twice equals making it safe once |
| Traces.TraceFileName | stigmergic-trace-signaler.py:30-31 | the trace file name is the timestamp with every `:` made `-`, followed by `.txt`; it holds no `:` |
| Traces.TraceFileNameShared | stigmergic-trace-signaler.py:30-31 | a timestamp and its colon-free form name the same file, which mode `'w'` overwrites |
| Traces.TraceFileNameSameIff | stigmergic-trace-signaler.py:30-31 | two timestamps name the same trace file exactly when they agree once every `:` is made `-` |
| Traces.FirstIndex | stigmergic-trace-signaler.py:115 | the position found holds the character and none before it does, and no position is found only when the character is absent |
| Traces.TraceLine | stigmergic-trace-signaler.py:115 | the trace line opens with `[` and the timestamp, ends in a newline, and is exactly as long as its fields and fixed labels; `TraceLineRoundTrip` and `ParseTraceLineExact` state that it reads back |
| Traces.TraceLineRoundTrip | stigmergic-trace-signaler.py:115 | a trace line with a `]`-free timestamp and 64-character hashes reads back to its four fields |
| Traces.ParseTraceLineExact | stigmergic-trace-signaler.py:115 | every line the reader accepts is exactly the line written for the fields it read |
| Traces.GroundingTrace | stigmergic-trace-signaler.py:110-115 | the trace of a grounding records the timestamp, the repository, and the integrity and instance hashes stored in the grounded instance; the instance hash is the unstripped hash of the stamped copy |
| Traces.GroundingTraceReadsBack | stigmergic-trace-signaler.py:110-115 | the trace line of a grounding reads back to its record |
| Traces.LogicFileName | stigmergic-trace-signaler.py:21 | the logic file name is the repository name followed by `-core-logic.json` |
| Traces.RepoName | stigmergic-trace-signaler.py:42 | `replace("-core-logic.json", "")` never lengthens a name; `RepoNamePatternFree` and `RepoNameSkipsPrefix` fix its result |
| Traces.RepoNamePatternFree | stigmergic-trace-signaler.py:42 | text that does not contain the pattern is left unchanged |
| Traces.RepoNameSkipsPrefix | stigmergic-trace-signaler.py:42 | removal scans left to right: a pattern-free prefix followed by the pattern keeps the prefix and drops the pattern |
| Traces.RepoNameRoundTrip | stigmergic-trace-signaler.py:42 | for a name without `-core-logic.json`, the name read from its logic file name (line 21) is the name itself |
| Traces.RepoNameDropsInnerPattern | stigmergic-trace-signaler.py:42 | every occurrence is removed, so a file name holding the pattern twice gives a name whose logic file is a different file |
| Traces.ListAvailableRepos | stigmergic-trace-signaler.py:35-42 | a missing directory lists nothing, and a directory never lists more names than entries |
| Traces.ListAvailableReposRoundTrip | stigmergic-trace-signaler.py:41-42 | a directory holding the logic files of pattern-free repository names lists exactly those names, in scan order |
| Traces.RepoNamesOf | stigmergic-trace-signaler.py:41-42 | the comprehension lists at most one name per entry; `Listed` and `RepoNamesOfAppend` state which names and in what order |
| Traces.Listed | stigmergic-trace-signaler.py:41-42 | a directory entry contributes at most one name, exactly when its name ends in `-core-logic.json`, and that name is the entry with every occurrence of the pattern removed |
| Traces.ListedDoubled | stigmergic-trace-signaler.py:41-42 | an entry holding the pattern twice is listed once, under the name with both occurrences removed |
| Traces.RepoNamesOfAppend | stigmergic-trace-signaler.py:41-42 | listing two runs of entries one after the other lists each run in turn, in scan order |
| Traces.ListIgnoresOtherFiles | stigmergic-trace-signaler.py:41 | an entry not ending in `-core-logic.json` is not listed, wherever it stands in the listing |

## Left out

- File and process I/O is not modelled. This covers `exists`, `open`,
  `json.load`, `mkdir`, the trace write, `print`, `sys.exit` and argument
  parsing (lines 35-57 and 80-121). Only their pure string parts are modelled.
- The directory scan order of `glob` is unspecified, so the listing is an input.
  Whether an entry is a file, and hidden-file matching, are not modelled.
- SHA-256 internals are not modelled; SHA-256 is a function parameter returning 32 bytes.
- Reading the clock and `isoformat(timespec='milliseconds')` are not modelled.
  The timestamp is a string parameter.
- Floats are left out: `repr`, and the `NaN`/`Infinity` output `json.dumps`
  allows by default. Numbers are integers.
- Python's 4300-digit limit on integer-to-text conversion is not modelled.
  Integers are unbounded.
- Python strings may hold lone surrogates, which `json.dumps` would write as
  `\udXXX` escapes. Dafny characters are Unicode scalar values, so such strings
  cannot be represented.
- The display output `json.dumps(instance, indent=2)` at line 103 is not
  modelled. Neither is re-reading it: only the canonical compact text is read back.
- `json.load`'s own behaviour is not modelled: duplicate keys collapsing,
  and errors on malformed input. Documents are given as trees whose dicts have
  distinct keys (`JsonValue.WellFormed`).
- Both `generate_hash` and `get_core_logic` leave the caller's document
  unchanged. This holds by construction, because all values are immutable;
  no separate statement is made.
- The transcription artifacts `[cite: 1]` in `cognitive-compressor.py` are ignored.
  So is the differing trace directory name at line 26.
- A trace-collision or exclusive-create condition is not modelled. The code
  overwrites existing files.
- The surrogate split `(m >> 10) & 0x3ff` and `m & 0x3ff` is written with
  division and remainder. These agree for the non-negative `m < 0x100000` that occur.
- RepoName: its own contract only bounds the result's length. Its meaning is
  stated by `Traces.RepoNamePatternFree` (text without the pattern is kept)
  and `Traces.RepoNameSkipsPrefix` (the first occurrence is removed and the
  rest is processed on). Together these fix the result for every input.
  `Traces.RepoNameRoundTrip` and `Traces.RepoNameDropsInnerPattern` follow from them.
- Grounding.InstanceHashInputDependsOnTimestamp: states that the hashed bytes
  differ, not that the hex digests differ, since SHA-256 is a parameter with no
  collision-freedom assumed.
- A non-dict document passed to `get_core_logic` is modelled as one error,
  `NotADict`. Python would raise `AttributeError` or `TypeError`, depending on
  the type.

=== FILE: canonical.dfy ===
/**
 The canonical text `json.dumps(content, sort_keys=True, separators=(',', ':'))`:
 every dict's members sorted by key at every depth, lists kept in order,
 no whitespace, `,` between items and `:` between a key and its value.
 `Dumps` is `Serialize` (an order-preserving writer) after `SortKeys`.
 */
module Canonical {
  import opened JsonValue
  import opened KeyOrder
  import opened StringEscape
  import opened IntText

  /** Keys never step backwards. */
  predicate Ordered(ms: seq<Member>)
  {
    forall i, j :: 0 <= i < j < |ms| ==> !Less(ms[j].0, ms[i].0)
  }

  /** Keys strictly ascending in code-point order. */
  predicate Ascending(ms: seq<Member>)
  {
    forall i, j :: 0 <= i < j < |ms| ==> Less(ms[i].0, ms[j].0)
  }

  /** Two member lists hold exactly the same members. */
  ghost predicate SameMembers(a: seq<Member>, b: seq<Member>)
  {
    forall m :: m in a <==> m in b
  }

  lemma {:induction false} KeysOfSameMembers(a: seq<Member>, b: seq<Member>)
    requires SameMembers(a, b)
    ensures Keys(a) == Keys(b)
  {
    forall k ensures k in Keys(a) ==> k in Keys(b) {
      KeysIn(a, k);
      KeysIn(b, k);
      if k in Keys(a) {
        var i :| 0 <= i < |a| && a[i].0 == k;
        assert a[i] in b;
      }
    }
    forall k ensures k in Keys(b) ==> k in Keys(a) {
      KeysIn(a, k);
      KeysIn(b, k);
      if k in Keys(b) {
        var i :| 0 <= i < |b| && b[i].0 == k;
        assert b[i] in a;
      }
    }
  }

  /** Inserts a member after every member whose key is not greater. */
  function Insert(m: Member, ms: seq<Member>): (r: seq<Member>)
    requires Ordered(ms)
    ensures Ordered(r)
    ensures multiset(r) == multiset(ms) + multiset{m}
  {
    if |ms| == 0 || Less(m.0, ms[0].0) then
      InsertFrontOrdered(m, ms);
      [m] + ms
    else
      var r := [ms[0]] + Insert(m, ms[1..]);
      assert ms == [ms[0]] + ms[1..];
      forall j | 0 < j < |r| ensures !Less(r[j].0, ms[0].0) {
        assert r[j] in multiset(Insert(m, ms[1..]));
        if r[j] != m {
          assert r[j] in ms[1..];
        }
      }
      r
  }

  lemma InsertFrontOrdered(m: Member, ms: seq<Member>)
    requires Ordered(ms)
    requires |ms| == 0 || Less(m.0, ms[0].0)
    ensures Ordered([m] + ms)
  {
    var r := [m] + ms;
    forall i, j | 0 <= i < j < |r| ensures !Less(r[j].0, r[i].0) {
      if i == 0 {
        if j == 1 {
          LessAsymmetric(m.0, ms[0].0);
        } else if Less(r[j].0, m.0) {
          LessTransitive(r[j].0, m.0, ms[0].0);
        }
      }
    }
  }

  lemma {:induction false} InsertKeys(m: Member, ms: seq<Member>)
    requires Ordered(ms)
    ensures Keys(Insert(m, ms)) == Keys(ms) + {m.0}
    ensures DistinctKeys(ms) && m.0 !in Keys(ms) ==> DistinctKeys(Insert(m, ms))
  {
    if |ms| > 0 && !Less(m.0, ms[0].0) {
      InsertKeys(m, ms[1..]);
      var r := Insert(m, ms);
      assert r[1..] == Insert(m, ms[1..]);
    }
  }

  /** Insertion sort by key: the order `sorted(d.items())` produces. */
  function SortMembers(ms: seq<Member>): (r: seq<Member>)
    ensures Ordered(r)
    ensures multiset(r) == multiset(ms)
    ensures |r| == |ms|
  {
    if |ms| == 0 then []
    else
      assert ms == [ms[0]] + ms[1..];
      Insert(ms[0], SortMembers(ms[1..]))
  }

  lemma {:induction false} SortMembersKeys(ms: seq<Member>)
    ensures Keys(SortMembers(ms)) == Keys(ms)
    ensures DistinctKeys(ms) ==> DistinctKeys(SortMembers(ms))
  {
    if |ms| > 0 {
      SortMembersKeys(ms[1..]);
      InsertKeys(ms[0], SortMembers(ms[1..]));
    }
  }

  /** Sorting a dict with distinct keys puts its keys in strictly ascending order. */
  lemma SortMembersAscending(ms: seq<Member>)
    requires DistinctKeys(ms)
    ensures Ascending(SortMembers(ms))
  {
    var r := SortMembers(ms);
    SortMembersKeys(ms);
    DistinctKeysAt(r);
    forall i, j | 0 <= i < j < |r| ensures Less(r[i].0, r[j].0) {
      LessTotal(r[i].0, r[j].0);
    }
  }

  /**
   Two lists in strictly ascending key order that hold the same members are
   the same list: the sorted order of a dict is unique.
   */
  lemma {:induction false} AscendingUnique(a: seq<Member>, b: seq<Member>)
    requires Ascending(a) && Ascending(b)
    requires SameMembers(a, b)
    ensures a == b
  {
    assert |a| > 0 ==> a[0] in b;
    assert |b| > 0 ==> b[0] in a;
    if |a| > 0 {
      var j :| 0 <= j < |b| && b[j] == a[0];
      var i :| 0 <= i < |a| && a[i] == b[0];
      if j > 0 {
        if i > 0 {
          LessAsymmetric(a[0].0, a[i].0);
        } else {
          LessIrreflexive(a[0].0);
        }
      }
      assert a[0] == b[0];
      forall m ensures m in a[1..] <==> m in b[1..] {
        if m in a[1..] {
          var k :| 1 <= k < |a| && a[k] == m;
          assert m in b;
          if m == b[0] {
            LessIrreflexive(a[0].0);
          }
        }
        if m in b[1..] {
          var k :| 1 <= k < |b| && b[k] == m;
          assert m in a;
          if m == a[0] {
            LessIrreflexive(b[0].0);
          }
        }
      }
      AscendingUnique(a[1..], b[1..]);
      assert a == [a[0]] + a[1..] && b == [b[0]] + b[1..];
    }
  }

  /** Every dict in the tree lists its keys in strictly ascending order. */
  predicate Canonical(j: Json)
    decreases j
  {
    match j
    case Arr(items) => forall i :: 0 <= i < |items| ==> Canonical(items[i])
    case Obj(ms) => Ascending(ms) && forall i :: 0 <= i < |ms| ==> Canonical(ms[i].1)
    case _ => true
  }

  /** Sorts the members of every dict in the tree by key; lists keep their order. */
  function SortKeys(j: Json): (r: Json)
    ensures r.Arr? <==> j.Arr?
    ensures r.Obj? <==> j.Obj?
    ensures j.Arr? ==> |r.items| == |j.items|
    ensures j.Obj? ==> |r.members| == |j.members|
    ensures !j.Arr? && !j.Obj? ==> r == j
    decreases j
  {
    match j
    case Arr(items) => Arr(seq(|items|, i requires 0 <= i < |items| => SortKeys(items[i])))
    case Obj(ms) => Obj(SortMembers(seq(|ms|, i requires 0 <= i < |ms| => (ms[i].0, SortKeys(ms[i].1)))))
    case _ => j
  }

  /** The members of one dict with each value's own dicts sorted, keys in place. */
  function SortValues(ms: seq<Member>): seq<Member>
  {
    seq(|ms|, i requires 0 <= i < |ms| => (ms[i].0, SortKeys(ms[i].1)))
  }

  lemma SortKeysObj(ms: seq<Member>)
    ensures SortKeys(Obj(ms)) == Obj(SortMembers(SortValues(ms)))
  {
  }

  lemma SortValuesDistinct(ms: seq<Member>)
    requires DistinctKeys(ms)
    ensures DistinctKeys(SortValues(ms))
  {
    DistinctKeysAt(ms);
    DistinctKeysAt(SortValues(ms));
  }

  /** After sorting, every dict at every depth has strictly ascending keys. */
  lemma {:induction false} SortKeysCanonical(j: Json)
    requires WellFormed(j)
    ensures Canonical(SortKeys(j))
    decreases j
  {
    match j
    case Arr(items) =>
      forall i | 0 <= i < |items| ensures Canonical(SortKeys(items[i])) {
        SortKeysCanonical(items[i]);
      }
    case Obj(ms) =>
      var vs := SortValues(ms);
      var r := SortMembers(vs);
      SortValuesDistinct(ms);
      SortMembersAscending(vs);
      forall k | 0 <= k < |r| ensures Canonical(r[k].1) {
        assert r[k] in multiset(vs);
        var i :| 0 <= i < |vs| && vs[i] == r[k];
        SortKeysCanonical(ms[i].1);
      }
    case _ =>
  }

  /**
   Two documents are the same dictionary tree: equal scalars, lists equal
   element by element, dicts of equal size in which every member of either
   side meets a member of the other with the same key and an equivalent value,
   whatever the member order.
   */
  ghost predicate Equiv(a: Json, b: Json)
    decreases a, 2
  {
    match a
    case Arr(xs) =>
      && b.Arr? && |xs| == |b.items|
      && forall i :: 0 <= i < |xs| ==> Equiv(xs[i], b.items[i])
    case Obj(ms) =>
      b.Obj? && |ms| == |b.members| && Covers(a, ms, b.members) && CoveredBy(a, ms, b.members)
    case _ => a == b
  }

  /** Every member of the dict `a` (whose members are `ms`) is matched in `ns`. */
  ghost predicate Covers(a: Json, ms: seq<Member>, ns: seq<Member>)
    requires a == Obj(ms)
    decreases a, 1
  {
    forall i :: 0 <= i < |ms| ==> HasMatch(ms[i], ns)
  }

  /** Some member of `ns` has the key of `m` and a value equivalent to its value. */
  ghost predicate HasMatch(m: Member, ns: seq<Member>)
  {
    exists k :: 0 <= k < |ns| && ns[k].0 == m.0 && Equiv(m.1, ns[k].1)
  }

  /** Every member of `ns` is matched by a member of the dict `a` (whose members are `ms`). */
  ghost predicate CoveredBy(a: Json, ms: seq<Member>, ns: seq<Member>)
    requires a == Obj(ms)
    decreases a, 1
  {
    forall k :: 0 <= k < |ns| ==> HasSource(a, ms, ns[k])
  }

  /** Some member of `ms` has the key of `n` and a value equivalent to its value. */
  ghost predicate HasSource(a: Json, ms: seq<Member>, n: Member)
    requires a == Obj(ms)
    decreases a, 0
  {
    exists i :: 0 <= i < |ms| && ms[i].0 == n.0 && Equiv(ms[i].1, n.1)
  }

  lemma {:induction false} EquivReflexive(a: Json)
    ensures Equiv(a, a)
    decreases a
  {
    match a
    case Arr(xs) =>
      forall i | 0 <= i < |xs| ensures Equiv(xs[i], xs[i]) {
        EquivReflexive(xs[i]);
      }
    case Obj(ms) =>
      forall i | 0 <= i < |ms| ensures HasMatch(ms[i], ms) && HasSource(a, ms, ms[i]) {
        EquivReflexive(ms[i].1);
        assert ms[i].0 == ms[i].0 && Equiv(ms[i].1, ms[i].1);
      }
    case _ =>
  }

  lemma {:induction false} EquivSymmetric(a: Json, b: Json)
    requires Equiv(a, b)
    ensures Equiv(b, a)
    decreases a
  {
    match a
    case Arr(xs) =>
      forall i | 0 <= i < |xs| ensures Equiv(b.items[i], xs[i]) {
        EquivSymmetric(xs[i], b.items[i]);
      }
    case Obj(ms) =>
      var ns := b.members;
      forall k | 0 <= k < |ns| ensures HasMatch(ns[k], ms) {
        assert HasSource(a, ms, ns[k]);
        var i :| 0 <= i < |ms| && ms[i].0 == ns[k].0 && Equiv(ms[i].1, ns[k].1);
        EquivSymmetric(ms[i].1, ns[k].1);
      }
      forall i | 0 <= i < |ms| ensures HasSource(b, ns, ms[i]) {
        assert HasMatch(ms[i], ns);
        var k :| 0 <= k < |ns| && ns[k].0 == ms[i].0 && Equiv(ms[i].1, ns[k].1);
        EquivSymmetric(ms[i].1, ns[k].1);
      }
    case _ =>
  }

  lemma {:induction false} EquivTransitive(a: Json, b: Json, c: Json)
    requires Equiv(a, b) && Equiv(b, c)
    ensures Equiv(a, c)
    decreases a
  {
    match a
    case Arr(xs) =>
      forall i | 0 <= i < |xs| ensures Equiv(xs[i], c.items[i]) {
        EquivTransitive(xs[i], b.items[i], c.items[i]);
      }
    case Obj(ms) =>
      var ns, ps := b.members, c.members;
      forall i | 0 <= i < |ms| ensures HasMatch(ms[i], ps) {
        assert HasMatch(ms[i], ns);
        var k :| 0 <= k < |ns| && ns[k].0 == ms[i].0 && Equiv(ms[i].1, ns[k].1);
        assert HasMatch(ns[k], ps);
        var q :| 0 <= q < |ps| && ps[q].0 == ns[k].0 && Equiv(ns[k].1, ps[q].1);
        EquivTransitive(ms[i].1, ns[k].1, ps[q].1);
      }
      forall q | 0 <= q < |ps| ensures HasSource(a, ms, ps[q]) {
        assert HasSource(b, ns, ps[q]);
        var k :| 0 <= k < |ns| && ns[k].0 == ps[q].0 && Equiv(ns[k].1, ps[q].1);
        assert HasSource(a, ms, ns[k]);
        var i :| 0 <= i < |ms| && ms[i].0 == ns[k].0 && Equiv(ms[i].1, ns[k].1);
        EquivTransitive(ms[i].1, ns[k].1, ps[q].1);
      }
    case _ =>
  }

  /**
   A dict is equivalent to any reordering of a member-by-member equivalent
   copy of itself.
   */
  lemma ReorderedEquiv(ms: seq<Member>, vs: seq<Member>, r: seq<Member>)
    requires |vs| == |ms|
    requires forall i :: 0 <= i < |ms| ==> vs[i].0 == ms[i].0 && Equiv(ms[i].1, vs[i].1)
    requires multiset(r) == multiset(vs)
    ensures Equiv(Obj(ms), Obj(r))
  {
    var a := Obj(ms);
    assert |r| == |vs| by {
      assert |multiset(r)| == |multiset(vs)|;
    }
    forall i | 0 <= i < |ms| ensures HasMatch(ms[i], r) {
      assert vs[i] in multiset(r);
      var k :| 0 <= k < |r| && r[k] == vs[i];
    }
    forall k | 0 <= k < |r| ensures HasSource(a, ms, r[k]) {
      assert r[k] in multiset(vs);
      var i :| 0 <= i < |vs| && vs[i] == r[k];
    }
  }

  /** Sorting keys changes only member order: the sorted tree is the same dictionary tree. */
  lemma {:induction false} SortKeysEquiv(a: Json)
    ensures Equiv(a, SortKeys(a))
    decreases a
  {
    match a
    case Arr(xs) =>
      forall i | 0 <= i < |xs| ensures Equiv(xs[i], SortKeys(xs[i])) {
        SortKeysEquiv(xs[i]);
      }
    case Obj(ms) =>
      var vs := SortValues(ms);
      forall i | 0 <= i < |ms| ensures vs[i].0 == ms[i].0 && Equiv(ms[i].1, vs[i].1) {
        SortKeysEquiv(ms[i].1);
      }
      ReorderedEquiv(ms, vs, SortMembers(vs));
      SortKeysObj(ms);
    case _ =>
  }

  /** Two dicts with distinct keys and the same members sort to the same list. */
  lemma SortSameMembers(va: seq<Member>, vb: seq<Member>)
    requires DistinctKeys(va) && DistinctKeys(vb)
    requires SameMembers(va, vb)
    ensures SortMembers(va) == SortMembers(vb)
  {
    var ra, rb := SortMembers(va), SortMembers(vb);
    assert multiset(ra) == multiset(va) && multiset(rb) == multiset(vb);
    forall x ensures x in ra <==> x in rb {
      calc {
        x in ra;
        x in multiset(ra);
        x in multiset(va);
        x in va;
        x in vb;
        x in multiset(vb);
        x in multiset(rb);
        x in rb;
      }
    }
    SortMembersAscending(va);
    SortMembersAscending(vb);
    AscendingUnique(ra, rb);
  }

  /** Equivalent well-formed documents sort to the very same tree. */
  lemma {:induction false} EquivSortKeysEqual(a: Json, b: Json)
    requires WellFormed(a) && WellFormed(b)
    requires Equiv(a, b)
    ensures SortKeys(a) == SortKeys(b)
    decreases a
  {
    match a
    case Arr(xs) =>
      var ys := b.items;
      forall i | 0 <= i < |xs| ensures SortKeys(xs[i]) == SortKeys(ys[i]) {
        EquivSortKeysEqual(xs[i], ys[i]);
      }
    case Obj(ms) =>
      var ns := b.members;
      var va, vb := SortValues(ms), SortValues(ns);
      forall x | x in va ensures x in vb {
        var i :| 0 <= i < |va| && va[i] == x;
        assert HasMatch(ms[i], ns);
        var k :| 0 <= k < |ns| && ns[k].0 == ms[i].0 && Equiv(ms[i].1, ns[k].1);
        EquivSortKeysEqual(ms[i].1, ns[k].1);
        assert vb[k] == x;
      }
      forall x | x in vb ensures x in va {
        var k :| 0 <= k < |vb| && vb[k] == x;
        assert HasSource(a, ms, ns[k]);
        var i :| 0 <= i < |ms| && ms[i].0 == ns[k].0 && Equiv(ms[i].1, ns[k].1);
        EquivSortKeysEqual(ms[i].1, ns[k].1);
        assert va[i] == x;
      }
      SortValuesDistinct(ms);
      SortValuesDistinct(ns);
      SortSameMembers(va, vb);
      SortKeysObj(ms);
      SortKeysObj(ns);
    case _ =>
  }

  /**
   Writes a tree as JSON text in the order it is given: `,` between items and
   members, `:` between a key and its value, no whitespace.
   */
  function Serialize(j: Json): (r: string)
    ensures |r| > 0
    ensures forall i :: 0 <= i < |r| ==> Printable(r[i])
    decreases j
  {
    match j
    case Null => "null"
    case Bool(b) => if b then "true" else "false"
    case Int(n) => IntToString(n)
    case Str(s) => Quote(s)
    case Arr(items) => "[" + SerializeItems(items) + "]"
    case Obj(ms) => "{" + SerializeMembers(ms) + "}"
  }

  function SerializeItems(items: seq<Json>): (r: string)
    ensures forall i :: 0 <= i < |r| ==> Printable(r[i])
    decreases items
  {
    if |items| == 0 then ""
    else if |items| == 1 then Serialize(items[0])
    else Serialize(items[0]) + "," + SerializeItems(items[1..])
  }

  function SerializeMembers(ms: seq<Member>): (r: string)
    ensures forall i :: 0 <= i < |r| ==> Printable(r[i])
    ensures |ms| > 0 ==> |r| > 0 && r[0] == '"'
    decreases ms
  {
    if |ms| == 0 then ""
    else if |ms| == 1 then SerializeMember(ms[0])
    else SerializeMember(ms[0]) + "," + SerializeMembers(ms[1..])
  }

  function SerializeMember(m: Member): (r: string)
    ensures forall i :: 0 <= i < |r| ==> Printable(r[i])
    ensures |r| > 0 && r[0] == '"'
    decreases m
  {
    Quote(m.0) + ":" + Serialize(m.1)
  }

  /**
   `json.dumps(j, sort_keys=True, separators=(',', ':'))`. The text is
   printable ASCII (0x20 to 0x7E): every other character reaches it only as
   an escape.
   */
  function Dumps(j: Json): (r: string)
    ensures |r| >= 1
    ensures forall i :: 0 <= i < |r| ==> Printable(r[i])
  {
    Serialize(SortKeys(j))
  }

  /** Documents that are the same dictionary tree have the same canonical text. */
  lemma DumpsOfEquiv(a: Json, b: Json)
    requires WellFormed(a) && WellFormed(b)
    requires Equiv(a, b)
    ensures Dumps(a) == Dumps(b)
  {
    EquivSortKeysEqual(a, b);
  }

  /**
   Inserting the same members into a dict in a different order does not
   change its canonical text.
   */
  lemma DumpsIgnoresInsertionOrder(ms: seq<Member>, ns: seq<Member>)
    requires WellFormed(Obj(ms))
    requires multiset(ms) == multiset(ns)
    ensures Dumps(Obj(ms)) == Dumps(Obj(ns))
  {
    forall i | 0 <= i < |ms| ensures ms[i].0 == ms[i].0 && Equiv(ms[i].1, ms[i].1) {
      EquivReflexive(ms[i].1);
    }
    ReorderedEquiv(ms, ms, ns);
    WellFormedReordered(ms, ns);
    DumpsOfEquiv(Obj(ms), Obj(ns));
  }

  lemma WellFormedReordered(ms: seq<Member>, ns: seq<Member>)
    requires WellFormed(Obj(ms))
    requires multiset(ms) == multiset(ns)
    ensures WellFormed(Obj(ns))
  {
    assert SameMembers(ms, ns) by {
      forall x ensures x in ms <==> x in ns {
        assert x in ms <==> x in multiset(ms);
        assert x in ns <==> x in multiset(ns);
      }
    }
    forall k | 0 <= k < |ns| ensures WellFormed(ns[k].1) {
      assert ns[k] in ms;
    }
    DistinctFromMultiset(ms, ns);
  }

  /** Removing one member keeps the keys distinct, and the removed key is gone. */
  lemma RemoveAtDistinct(ms: seq<Member>, i: nat)
    requires DistinctKeys(ms)
    requires i < |ms|
    ensures DistinctKeys(ms[..i] + ms[i + 1..])
    ensures forall m :: m in ms[..i] + ms[i + 1..] ==> m.0 != ms[i].0
  {
    var rest := ms[..i] + ms[i + 1..];
    DistinctKeysAt(ms);
    DistinctKeysAt(rest);
    forall p | 0 <= p < |rest| ensures rest[p] == ms[if p < i then p else p + 1] {
    }
  }

  lemma RemoveFirstMatching(ms: seq<Member>, ns: seq<Member>, i: nat)
    requires multiset(ms) == multiset(ns)
    requires i < |ms| && |ns| > 0 && ms[i] == ns[0]
    ensures multiset(ns[1..]) == multiset(ms[..i] + ms[i + 1..])
  {
    var x := ns[0];
    assert ms == ms[..i] + [x] + ms[i + 1..];
    assert multiset(ms[..i] + ms[i + 1..]) == multiset(ms) - multiset{x};
    assert ns == [x] + ns[1..];
    assert multiset(ns[1..]) == multiset(ns) - multiset{x};
  }

  lemma KeyAbsentFromSameMultiset(rest: seq<Member>, tail: seq<Member>, k: string)
    requires multiset(tail) == multiset(rest)
    requires forall m :: m in rest ==> m.0 != k
    ensures k !in Keys(tail)
  {
    forall p | 0 <= p < |tail| ensures tail[p].0 != k {
      assert tail[p] in multiset(rest);
    }
    KeysIn(tail, k);
  }

  /** Distinctness of keys depends only on the multiset of members. */
  lemma {:induction false} DistinctFromMultiset(ms: seq<Member>, ns: seq<Member>)
    requires DistinctKeys(ms)
    requires multiset(ms) == multiset(ns)
    ensures DistinctKeys(ns)
    decreases |ns|
  {
    if |ns| > 0 {
      assert ns[0] in multiset(ms);
      var i :| 0 <= i < |ms| && ms[i] == ns[0];
      var rest := ms[..i] + ms[i + 1..];
      RemoveFirstMatching(ms, ns, i);
      RemoveAtDistinct(ms, i);
      DistinctFromMultiset(rest, ns[1..]);
      KeyAbsentFromSameMultiset(rest, ns[1..], ns[0].0);
    }
  }
}

=== FILE: escape.dfy ===
/**
 String literals as the canonical encoder writes them: section 7 of RFC 8259
 with ASCII-only output (Python's `ensure_ascii=True`). `"` and `\` are
 escaped, the five control characters with short escapes use them, every other
 character outside 0x20-0x7E becomes a lowercase `\uXXXX`, and characters
 beyond the Basic Multilingual Plane become a surrogate pair of two such
 escapes. The decoder `ParseString` is the inverse used to show that the
 escaping loses nothing.
 */
module StringEscape {
  import opened Wrappers

  // ---------------------------------------------------------------------
  // Proof helpers: regroupings of concatenations that the solver needs
  // spelled out as separate facts to keep the larger proofs small
  // ---------------------------------------------------------------------

  /** Regrouping a concatenation of three strings. */
  lemma Associate(a: string, b: string, c: string)
    ensures a + b + c == a + (b + c)
  {
  }

  /** Regrouping a concatenation of four strings. */
  lemma Regroup(a: string, b: string, c: string, d: string)
    ensures a + b + c + d == a + (b + (c + d))
  {
  }

  /** A character Python's ASCII encoder passes through unchanged (space to `~`). */
  predicate Printable(c: char)
  {
    0x20 <= c as int <= 0x7E
  }

  predicate IsHexDigit(c: char)
  {
    '0' <= c <= '9' || 'a' <= c <= 'f'
  }

  /** Lowercase hexadecimal digit for a nibble. */
  function HexDigit(d: int): (c: char)
    requires 0 <= d < 16
    ensures IsHexDigit(c) && Printable(c)
  {
    if d < 10 then ('0' as int + d) as char else ('a' as int + d - 10) as char
  }

  /** The value of a hexadecimal digit in either case, as RFC 8259 accepts it. */
  function HexValue(c: char): (r: Option<int>)
    ensures r.Some? ==> 0 <= r.value < 16
  {
    if '0' <= c <= '9' then Some(c as int - '0' as int)
    else if 'a' <= c <= 'f' then Some(c as int - 'a' as int + 10)
    else if 'A' <= c <= 'F' then Some(c as int - 'A' as int + 10)
    else None
  }

  lemma HexDigitValue(d: int)
    requires 0 <= d < 16
    ensures HexValue(HexDigit(d)) == Some(d)
  {
  }

  /** `'{0:04x}'.format(n)`: four lowercase hex digits, most significant first. */
  function Hex4(n: int): (r: string)
    requires 0 <= n < 0x10000
    ensures |r| == 4
    ensures forall i :: 0 <= i < 4 ==> IsHexDigit(r[i]) && Printable(r[i])
  {
    [HexDigit(n / 0x1000), HexDigit(n / 0x100 % 0x10), HexDigit(n / 0x10 % 0x10), HexDigit(n % 0x10)]
  }

  /** Reads four hex digits at the front of `t`. */
  function ParseHex4(t: string): (r: Option<int>)
    ensures r.Some? ==> |t| >= 4 && 0 <= r.value < 0x10000
  {
    if |t| < 4 then None
    else match (HexValue(t[0]), HexValue(t[1]), HexValue(t[2]), HexValue(t[3]))
      case (Some(a), Some(b), Some(c), Some(d)) => Some(a * 0x1000 + b * 0x100 + c * 0x10 + d)
      case _ => None
  }

  lemma Hex4RoundTrip(n: int, rest: string)
    requires 0 <= n < 0x10000
    ensures ParseHex4(Hex4(n) + rest) == Some(n)
  {
    var t := Hex4(n) + rest;
    var a, b, c, d := n / 0x1000, n / 0x100 % 0x10, n / 0x10 % 0x10, n % 0x10;
    assert t[0] == HexDigit(a) && t[1] == HexDigit(b) && t[2] == HexDigit(c) && t[3] == HexDigit(d);
    HexDigitValue(a);
    HexDigitValue(b);
    HexDigitValue(c);
    HexDigitValue(d);
    Hex4Digits(n);
  }

  /** The four nibbles of a 16-bit value put back together give the value. */
  lemma Hex4Digits(n: int)
    requires 0 <= n < 0x10000
    ensures (n / 0x1000) * 0x1000 + (n / 0x100 % 0x10) * 0x100 + (n / 0x10 % 0x10) * 0x10 + n % 0x10 == n
  {
    assert n == (n / 0x10) * 0x10 + n % 0x10;
    assert n / 0x10 == (n / 0x100) * 0x10 + n / 0x10 % 0x10;
    assert n / 0x100 == (n / 0x1000) * 0x10 + n / 0x100 % 0x10;
  }

  /** A run of `\uXXXX` escapes, each with four lowercase hex digits. */
  predicate UnicodeEscapes(r: string)
  {
    forall i :: 0 <= i < |r| ==>
      (i % 6 == 0 ==> r[i] == '\\') && (i % 6 == 1 ==> r[i] == 'u') && (i % 6 >= 2 ==> IsHexDigit(r[i]))
  }

  /** The escaped form of one character. */
  function EscapeChar(c: char): (r: string)
    ensures 1 <= |r| && r[0] != '"'
    ensures forall i :: 0 <= i < |r| ==> Printable(r[i])
    ensures |r| == 1 <==> Printable(c) && c != '"' && c != '\\'
    ensures |r| == 1 ==> r[0] == c
    ensures |r| > 1 ==> r[0] == '\\'
    ensures |r| in {1, 2, 6, 12}
    ensures |r| == 2 <==> c in {'"', '\\', '\n', '\r', '\t', 0x08 as char, 0x0C as char}
    ensures |r| == 12 <==> c as int >= 0x10000
    ensures |r| > 2 ==> UnicodeEscapes(r)
  {
    var n := c as int;
    if c == '"' then "\\\""
    else if c == '\\' then "\\\\"
    else if c == '\n' then "\\n"
    else if c == '\r' then "\\r"
    else if c == '\t' then "\\t"
    else if n == 0x08 then "\\b"
    else if n == 0x0C then "\\f"
    else if Printable(c) then [c]
    else if n < 0x10000 then
      UnicodeEscapeShape(n);
      "\\u" + Hex4(n)
    else
      // 0xd800 | ((m >> 10) & 0x3ff) and 0xdc00 | (m & 0x3ff), with m < 0x100000
      var m := n - 0x10000;
      UnicodeEscapeShape(0xD800 + m / 0x400);
      UnicodeEscapeShape(0xDC00 + m % 0x400);
      UnicodeEscapesConcat("\\u" + Hex4(0xD800 + m / 0x400), "\\u" + Hex4(0xDC00 + m % 0x400));
      "\\u" + Hex4(0xD800 + m / 0x400) + ("\\u" + Hex4(0xDC00 + m % 0x400))
  }

  /** One `\uXXXX` escape is six characters of the escape shape. */
  lemma UnicodeEscapeShape(n: int)
    requires 0 <= n < 0x10000
    ensures |"\\u" + Hex4(n)| == 6 && UnicodeEscapes("\\u" + Hex4(n))
  {
    var e := "\\u" + Hex4(n);
    forall i | 0 <= i < 6
      ensures (i % 6 == 0 ==> e[i] == '\\') && (i % 6 == 1 ==> e[i] == 'u') && (i % 6 >= 2 ==> IsHexDigit(e[i]))
    {
      if i >= 2 {
        assert e[i] == Hex4(n)[i - 2];
      }
    }
  }

  /** Runs of escapes put one after the other are again a run of escapes. */
  lemma UnicodeEscapesConcat(a: string, b: string)
    requires |a| % 6 == 0 && UnicodeEscapes(a) && UnicodeEscapes(b)
    ensures UnicodeEscapes(a + b)
  {
    var r := a + b;
    forall i | 0 <= i < |r|
      ensures (i % 6 == 0 ==> r[i] == '\\') && (i % 6 == 1 ==> r[i] == 'u') && (i % 6 >= 2 ==> IsHexDigit(r[i]))
    {
      if i >= |a| {
        assert r[i] == b[i - |a|];
        assert (i - |a|) % 6 == i % 6;
      }
    }
  }

  /** The escaped body of a string literal, without its quotes. */
  function EscapeBody(s: string): (r: string)
    ensures forall i :: 0 <= i < |r| ==> Printable(r[i])
    ensures |r| >= |s|
  {
    if |s| == 0 then [] else EscapeChar(s[0]) + EscapeBody(s[1..])
  }

  /** A JSON string literal as `json.dumps` writes it. */
  function Quote(s: string): (r: string)
    ensures |r| >= 2 && r[0] == '"' && r[|r| - 1] == '"'
    ensures forall i :: 0 <= i < |r| ==> Printable(r[i])
  {
    "\"" + EscapeBody(s) + "\""
  }

  /**
   Decodes one (possibly escaped) character at the front of a string body and
   says how many characters it took. Unescaped quotes and control characters,
   unknown escapes and unpaired surrogates are rejected.
   */
  function ParseChar(t: string): (r: Option<(char, nat)>)
    ensures r.Some? ==> 1 <= r.value.1 <= |t|
  {
    if |t| == 0 then None
    else if t[0] == '\\' then
      if |t| < 2 then None
      else if t[1] == '"' then Some(('"', 2))
      else if t[1] == '\\' then Some(('\\', 2))
      else if t[1] == '/' then Some(('/', 2))
      else if t[1] == 'b' then Some((0x08 as char, 2))
      else if t[1] == 'f' then Some((0x0C as char, 2))
      else if t[1] == 'n' then Some(('\n', 2))
      else if t[1] == 'r' then Some(('\r', 2))
      else if t[1] == 't' then Some(('\t', 2))
      else if t[1] == 'u' then ParseUnicodeEscape(t[2..])
      else None
    else if t[0] == '"' || (t[0] as int) < 0x20 then None
    else Some((t[0], 1))
  }

  /**
   Decodes what follows `\u`: four hex digits, and for a high surrogate a
   second `\uXXXX` holding the low surrogate. The count includes the leading `\u`.
   */
  function ParseUnicodeEscape(h: string): (r: Option<(char, nat)>)
    ensures r.Some? ==> (r.value.1 == 6 && |h| >= 4) || (r.value.1 == 12 && |h| >= 10)
  {
    match ParseHex4(h)
    case None => None
    case Some(hi) =>
      if 0xD800 <= hi < 0xDC00 then
        if |h| >= 6 && h[4] == '\\' && h[5] == 'u' then
          match ParseHex4(h[6..])
          case None => None
          case Some(lo) =>
            if 0xDC00 <= lo < 0xE000 then
              Some(((0x10000 + (hi - 0xD800) * 0x400 + (lo - 0xDC00)) as char, 12))
            else None
        else None
      else if 0xDC00 <= hi < 0xE000 then None
      else Some((hi as char, 6))
  }

  /**
   Decodes a string body up to its closing quote and returns the decoded
   string with the text after the quote.
   */
  function ParseString(t: string): (r: Option<(string, string)>)
    ensures r.Some? ==> |r.value.1| < |t|
    decreases |t|
  {
    if |t| == 0 then None
    else if t[0] == '"' then Some(([], t[1..]))
    else match ParseChar(t)
      case None => None
      case Some((c, k)) =>
        match ParseString(t[k..])
        case None => None
        case Some((s, rest)) => Some(([c] + s, rest))
  }

  /** A character written as `\uXXXX` in the Basic Multilingual Plane decodes back. */
  lemma ParseEscapedBmp(c: char, rest: string)
    requires !Printable(c) && c as int < 0x10000
    requires c != '\n' && c != '\r' && c != '\t' && c as int != 0x08 && c as int != 0x0C
    ensures ParseChar(EscapeChar(c) + rest) == Some((c, 6))
  {
    var n := c as int;
    var t := EscapeChar(c) + rest;
    assert EscapeChar(c) == "\\u" + Hex4(n);
    assert t[2..] == Hex4(n) + rest;
    Hex4RoundTrip(n, rest);
    assert t[0] == '\\' && t[1] == 'u';
  }

  /** After `\u`, a high and a low surrogate decode to the character they encode. */
  lemma SurrogatePairDecodes(hi: int, lo: int, rest: string)
    requires 0xD800 <= hi < 0xDC00 && 0xDC00 <= lo < 0xE000
    ensures ParseUnicodeEscape(Hex4(hi) + "\\u" + Hex4(lo) + rest)
         == Some(((0x10000 + (hi - 0xD800) * 0x400 + (lo - 0xDC00)) as char, 12))
  {
    var tail := "\\u" + Hex4(lo) + rest;
    var h := Hex4(hi) + tail;
    assert Hex4(hi) + "\\u" + Hex4(lo) + rest == h;
    Hex4RoundTrip(hi, tail);
    assert h[6..] == Hex4(lo) + rest;
    Hex4RoundTrip(lo, rest);
    assert h[4] == '\\' && h[5] == 'u';
  }

  /** An escape starting `\u` is decoded by `ParseUnicodeEscape`. */
  lemma ParseCharUnicode(u: string)
    ensures ParseChar("\\u" + u) == ParseUnicodeEscape(u)
  {
    var t := "\\u" + u;
    assert t[0] == '\\' && t[1] == 'u' && t[2..] == u;
  }

  /** The high and low surrogates of a code point beyond the Basic Multilingual Plane recombine to it. */
  lemma SurrogateArithmetic(n: int)
    requires 0x10000 <= n < 0x110000
    ensures 0xD800 <= 0xD800 + (n - 0x10000) / 0x400 < 0xDC00
    ensures 0xDC00 <= 0xDC00 + (n - 0x10000) % 0x400 < 0xE000
    ensures 0x10000 + (0xD800 + (n - 0x10000) / 0x400 - 0xD800) * 0x400 + (0xDC00 + (n - 0x10000) % 0x400 - 0xDC00) == n
  {
    var m := n - 0x10000;
    assert m / 0x400 * 0x400 + m % 0x400 == m;
  }

  /** The escaped form of a character beyond the Basic Multilingual Plane, followed by more text. */
  lemma EscapeAstralText(c: char, rest: string)
    requires c as int >= 0x10000
    ensures var m := c as int - 0x10000;
      EscapeChar(c) + rest == "\\u" + (Hex4(0xD800 + m / 0x400) + "\\u" + Hex4(0xDC00 + m % 0x400) + rest)
  {
  }

  /** A character beyond the Basic Multilingual Plane decodes back from its surrogate pair. */
  lemma ParseEscapedAstral(c: char, rest: string)
    requires c as int >= 0x10000
    ensures ParseChar(EscapeChar(c) + rest) == Some((c, 12))
  {
    var n := c as int;
    var m := n - 0x10000;
    var hi := 0xD800 + m / 0x400;
    var lo := 0xDC00 + m % 0x400;
    EscapeAstralText(c, rest);
    ParseCharUnicode(Hex4(hi) + "\\u" + Hex4(lo) + rest);
    AstralPairDecodes(c, rest);
  }

  /** The surrogate pair of a character beyond the Basic Multilingual Plane decodes to that character. */
  lemma AstralPairDecodes(c: char, rest: string)
    requires c as int >= 0x10000
    ensures var m := c as int - 0x10000;
      ParseUnicodeEscape(Hex4(0xD800 + m / 0x400) + "\\u" + Hex4(0xDC00 + m % 0x400) + rest) == Some((c, 12))
  {
    var n := c as int;
    var m := n - 0x10000;
    SurrogateArithmetic(n);
    SurrogatePairDecodes(0xD800 + m / 0x400, 0xDC00 + m % 0x400, rest);
    CharOfCode(c, 0x10000 + (0xD800 + m / 0x400 - 0xD800) * 0x400 + (0xDC00 + m % 0x400 - 0xDC00));
  }

  /** Proof helper: a code point equal to a character's converts back to that character. */
  lemma CharOfCode(c: char, n: int)
    requires n == c as int
    ensures n as char == c
  {
  }

  /** Decoding an escaped character gives back the character. */
  lemma ParseEscapedChar(c: char, rest: string)
    ensures ParseChar(EscapeChar(c) + rest) == Some((c, |EscapeChar(c)|))
  {
    var n := c as int;
    if c == '"' || c == '\\' || c == '\n' || c == '\r' || c == '\t' || n == 0x08 || n == 0x0C {
    } else if Printable(c) {
    } else if n < 0x10000 {
      ParseEscapedBmp(c, rest);
    } else {
      ParseEscapedAstral(c, rest);
    }
  }

  /** Decoding an escaped body followed by the closing quote gives back the string and the rest. */
  lemma {:induction false} EscapeRoundTrip(s: string, rest: string)
    ensures ParseString(EscapeBody(s) + "\"" + rest) == Some((s, rest))
  {
    if |s| == 0 {
      assert EscapeBody(s) + "\"" + rest == "\"" + rest;
    } else {
      var e := EscapeChar(s[0]);
      var u := EscapeBody(s[1..]) + "\"" + rest;
      assert EscapeBody(s) == e + EscapeBody(s[1..]);
      Regroup(e, EscapeBody(s[1..]), "\"", rest);
      Associate(EscapeBody(s[1..]), "\"", rest);
      ParseStringChar(s[0], u);
      EscapeRoundTrip(s[1..], rest);
      assert [s[0]] + s[1..] == s;
    }
  }

  /** Proof helper: decoding goes past one escaped character and goes on with what follows. */
  lemma ParseStringChar(c: char, u: string)
    ensures ParseString(EscapeChar(c) + u)
         == match ParseString(u)
            case None => None
            case Some((s, rest)) => Some(([c] + s, rest))
  {
    var e := EscapeChar(c);
    var t := e + u;
    ParseEscapedChar(c, u);
    assert t[0] == e[0];
    assert t[|e|..] == u;
  }

  /** A literal followed by more text: the opening quote, then the body, the closing quote and the text. */
  lemma QuoteText(s: string, rest: string)
    ensures Quote(s) + rest == "\"" + (EscapeBody(s) + "\"" + rest)
  {
    Regroup("\"", EscapeBody(s), "\"", rest);
  }

  /** A literal without its opening quote is the escaped body and the closing quote. */
  lemma QuoteTail(s: string)
    ensures Quote(s)[1..] == EscapeBody(s) + "\""
  {
  }

  /** Different strings have different literals: the escaping is injective. */
  lemma QuoteInjective(s1: string, s2: string)
    requires Quote(s1) == Quote(s2)
    ensures s1 == s2
  {
    QuoteTail(s1);
    QuoteTail(s2);
    EscapeRoundTrip(s1, []);
    EscapeRoundTrip(s2, []);
    assert EscapeBody(s1) + "\"" + [] == EscapeBody(s1) + "\"";
    assert EscapeBody(s2) + "\"" + [] == EscapeBody(s2) + "\"";
  }
}

=== FILE: grounding.dfy ===
/**
 `get_core_logic`: copy the loaded document, stamp it with a timestamp, add
 the integrity hash (metadata excluded) and then the instance hash (nothing
 excluded). The clock is read by the caller and passed in as `ts`.
 */
module Grounding {
  import opened Wrappers
  import opened JsonValue
  import opened Canonical
  import opened Hashing

  /** Why grounding fails: the loaded document is not a dict, so the key assignments raise. */
  datatype GroundError = NotADict

  // ---------------------------------------------------------------------
  // Facts about assignment and removal used below
  // ---------------------------------------------------------------------

  /** After `d[k] = v`, every member was already there or is the new one. */
  lemma {:induction false} SetMembers(ms: seq<Member>, k: string, v: Json)
    ensures forall m :: m in Set(ms, k, v) ==> m in ms || m == (k, v)
  {
    if |ms| > 0 && ms[0].0 != k {
      SetMembers(ms[1..], k, v);
    }
  }

  lemma SetWellFormed(ms: seq<Member>, k: string, v: Json)
    requires WellFormed(Obj(ms)) && WellFormed(v)
    ensures WellFormed(Obj(Set(ms, k, v)))
  {
    var r := Set(ms, k, v);
    SetMembers(ms, k, v);
    forall i | 0 <= i < |r| ensures WellFormed(r[i].1) {
      assert r[i] in r;
    }
  }

  /** Assigning the value a key already has changes nothing. */
  lemma {:induction false} SetSame(ms: seq<Member>, k: string, v: Json)
    requires Lookup(ms, k) == Some(v)
    ensures Set(ms, k, v) == ms
  {
    if ms[0].0 != k {
      SetSame(ms[1..], k, v);
      assert ms == [ms[0]] + ms[1..];
    } else {
      assert ms == [ms[0]] + ms[1..];
    }
  }

  /** A second assignment to the same key overrides the first. */
  lemma {:induction false} SetSet(ms: seq<Member>, k: string, v: Json, w: Json)
    ensures Set(Set(ms, k, v), k, w) == Set(ms, k, w)
  {
    if |ms| > 0 && ms[0].0 != k {
      SetSet(ms[1..], k, v, w);
      assert ([ms[0]] + Set(ms[1..], k, v))[1..] == Set(ms[1..], k, v);
    }
  }

  /** Removing a key right after assigning it undoes the assignment's new member. */
  lemma {:induction false} PopSet(ms: seq<Member>, k: string, v: Json)
    ensures Pop(Set(ms, k, v), k) == Pop(ms, k)
  {
    if |ms| > 0 && ms[0].0 != k {
      PopSet(ms[1..], k, v);
      assert ([ms[0]] + Set(ms[1..], k, v))[1..] == Set(ms[1..], k, v);
    }
  }

  // ---------------------------------------------------------------------
  // Grounding
  // ---------------------------------------------------------------------

  /** The copy after the timestamp and the integrity hash are assigned. */
  function Stamp(sha: seq<byte> -> Digest, fs: seq<Member>, ts: string): (r: seq<Member>)
    ensures Keys(r) == Keys(fs) + {TemporalGrounding, IntegrityHash}
    ensures Lookup(r, TemporalGrounding) == Some(Str(ts))
    ensures Lookup(r, IntegrityHash) == Some(Str(GenerateHash(sha, fs, true)))
    ensures forall k :: k != TemporalGrounding && k != IntegrityHash ==> Lookup(r, k) == Lookup(fs, k)
    ensures DistinctKeys(fs) ==> DistinctKeys(r)
  {
    var withTime := Set(fs, TemporalGrounding, Str(ts));
    HashIgnoresMetadataSet(sha, fs, TemporalGrounding, Str(ts));
    Set(withTime, IntegrityHash, Str(GenerateHash(sha, withTime, true)))
  }

  /** `get_core_logic` on a dict: the grounded instance. */
  function Ground(sha: seq<byte> -> Digest, fs: seq<Member>, ts: string): (r: seq<Member>)
    ensures Keys(r) == Keys(fs) + {TemporalGrounding, IntegrityHash, InstanceHash}
    ensures forall k :: !IsMetadata(k) ==> Lookup(r, k) == Lookup(fs, k)
    ensures Lookup(r, TemporalGrounding) == Some(Str(ts))
    ensures Lookup(r, IntegrityHash) == Some(Str(GenerateHash(sha, fs, true)))
    ensures Lookup(r, InstanceHash).Some? && Lookup(r, InstanceHash).value.Str?
    ensures |Lookup(r, InstanceHash).value.s| == 64
    ensures DistinctKeys(fs) ==> DistinctKeys(r)
  {
    var stamped := Stamp(sha, fs, ts);
    var h := GenerateHash(sha, stamped, false);
    AddThree(Keys(fs), TemporalGrounding, IntegrityHash, InstanceHash);
    Set(stamped, InstanceHash, Str(h))
  }

  /** Proof helper: regrouping the key set of the grounded instance. */
  lemma AddThree(a: set<string>, x: string, y: string, z: string)
    ensures a + {x, y} + {z} == a + {x, y, z}
  {
  }

  /**
   When the source had no `instance_hash`, the instance hash is the
   unstripped hash of the returned instance without that key: the source
   members, the timestamp and the integrity hash.
   */
  lemma InstanceHashCoversInstance(sha: seq<byte> -> Digest, fs: seq<Member>, ts: string)
    requires InstanceHash !in Keys(fs)
    ensures Lookup(Ground(sha, fs, ts), InstanceHash)
         == Some(Str(GenerateHash(sha, Pop(Ground(sha, fs, ts), InstanceHash), false)))
  {
    var stamped := Stamp(sha, fs, ts);
    var h := Str(GenerateHash(sha, stamped, false));
    PopSet(stamped, InstanceHash, h);
    PopUnchanged(stamped, InstanceHash);
  }

  /**
   When the source carried an `instance_hash`, that stale value is what was
   hashed: the instance hash is the unstripped hash of the returned instance
   with the source's value put back under that key.
   */
  lemma StaleInstanceHashIsHashed(sha: seq<byte> -> Digest, fs: seq<Member>, ts: string)
    requires InstanceHash in Keys(fs)
    ensures Lookup(Ground(sha, fs, ts), InstanceHash)
         == Some(Str(GenerateHash(sha, Set(Ground(sha, fs, ts), InstanceHash, Lookup(fs, InstanceHash).value), false)))
  {
    GroundRestored(sha, fs, ts);
  }

  /** Putting the source's `instance_hash` back gives the instance as it was hashed. */
  lemma GroundRestored(sha: seq<byte> -> Digest, fs: seq<Member>, ts: string)
    requires InstanceHash in Keys(fs)
    ensures Set(Ground(sha, fs, ts), InstanceHash, Lookup(fs, InstanceHash).value) == Stamp(sha, fs, ts)
  {
    var stamped := Stamp(sha, fs, ts);
    var h := Str(GenerateHash(sha, stamped, false));
    var stale := Lookup(fs, InstanceHash).value;
    StampKeeps(sha, fs, ts, InstanceHash);
    GroundIsStampThenSet(sha, fs, ts);
    SetRestore(stamped, InstanceHash, h, stale);
  }

  /** Proof helper: the stamp leaves every non-stamped key as it was. */
  lemma StampKeeps(sha: seq<byte> -> Digest, fs: seq<Member>, ts: string, k: string)
    requires k != TemporalGrounding && k != IntegrityHash
    ensures Lookup(Stamp(sha, fs, ts), k) == Lookup(fs, k)
  {
  }

  /** Proof helper: grounding is the stamp followed by the instance-hash assignment. */
  lemma GroundIsStampThenSet(sha: seq<byte> -> Digest, fs: seq<Member>, ts: string)
    ensures Ground(sha, fs, ts) == Set(Stamp(sha, fs, ts), InstanceHash, Str(GenerateHash(sha, Stamp(sha, fs, ts), false)))
  {
  }

  /** Overwriting a key and then assigning its old value back restores the members. */
  lemma SetRestore(ms: seq<Member>, k: string, v: Json, w: Json)
    requires Lookup(ms, k) == Some(w)
    ensures Set(Set(ms, k, v), k, w) == ms
  {
    SetSet(ms, k, v, w);
    SetSame(ms, k, w);
  }

  /** Grounding a document whose dicts have distinct keys gives one again. */
  lemma GroundWellFormed(sha: seq<byte> -> Digest, fs: seq<Member>, ts: string)
    requires WellFormed(Obj(fs))
    ensures WellFormed(Obj(Ground(sha, fs, ts)))
  {
    var withTime := Set(fs, TemporalGrounding, Str(ts));
    SetWellFormed(fs, TemporalGrounding, Str(ts));
    SetWellFormed(withTime, IntegrityHash, Str(GenerateHash(sha, withTime, true)));
    var stamped := Stamp(sha, fs, ts);
    SetWellFormed(stamped, InstanceHash, Str(GenerateHash(sha, stamped, false)));
  }

  /**
   Two groundings of the same document at different times hand SHA-256
   different bytes for the instance hash: the timestamp is part of its input.
   */
  lemma InstanceHashInputDependsOnTimestamp(sha: seq<byte> -> Digest, fs: seq<Member>, t1: string, t2: string)
    requires WellFormed(Obj(fs))
    requires t1 != t2
    ensures HashInput(Stamp(sha, fs, t1), false) != HashInput(Stamp(sha, fs, t2), false)
  {
    var s1 := Stamp(sha, fs, t1);
    var s2 := Stamp(sha, fs, t2);
    var withTime1 := Set(fs, TemporalGrounding, Str(t1));
    var withTime2 := Set(fs, TemporalGrounding, Str(t2));
    SetWellFormed(fs, TemporalGrounding, Str(t1));
    SetWellFormed(fs, TemporalGrounding, Str(t2));
    SetWellFormed(withTime1, IntegrityHash, Str(GenerateHash(sha, withTime1, true)));
    SetWellFormed(withTime2, IntegrityHash, Str(GenerateHash(sha, withTime2, true)));
    HashInputEqualIffEquiv(s1, s2, false);
    if Equiv(Obj(s1), Obj(s2)) {
      EquivLookup(s1, s2, TemporalGrounding, Str(t1), Str(t2));
      assert false;
    }
  }

  /**
   `get_core_logic(core_data)`: a dict is grounded; any other document makes
   the first key assignment raise.
   */
  function GetCoreLogic(sha: seq<byte> -> Digest, doc: Json, ts: string): (r: Result<Json, GroundError>)
    ensures r.Success? <==> doc.Obj?
    ensures r.Success? ==> r.value.Obj?
    ensures r.Success? ==> Keys(r.value.members) == Keys(doc.members) + {TemporalGrounding, IntegrityHash, InstanceHash}
    ensures r.Success? ==> forall k :: !IsMetadata(k) ==> Lookup(r.value.members, k) == Lookup(doc.members, k)
    ensures r.Success? && WellFormed(doc) ==> WellFormed(r.value)
  {
    match doc
    case Obj(fs) =>
      assert WellFormed(doc) ==> WellFormed(Obj(Ground(sha, fs, ts))) by {
        if WellFormed(doc) {
          GroundWellFormed(sha, fs, ts);
        }
      }
      Success(Obj(Ground(sha, fs, ts)))
    case _ => Failure(NotADict)
  }
}

=== FILE: hashing.dfy ===
/**
 `generate_hash`: a shallow copy of the dict, optionally without the three
 top-level metadata keys, written as canonical JSON, encoded as UTF-8,
 digested by SHA-256 and rendered as lowercase hexadecimal. SHA-256 itself is
 a parameter: any function from bytes to 32 bytes.
 */
module Hashing {
  import opened Wrappers
  import opened JsonValue
  import opened StringEscape
  import opened Canonical
  import opened JsonParser

  type byte = b: int | 0 <= b < 0x100

  /** The 32 bytes SHA-256 produces. */
  type Digest = s: seq<byte> | |s| == 32 witness seq(32, _ => 0)

  const TemporalGrounding: string := "temporal_grounding"
  const IntegrityHash: string := "integrity_hash"
  const InstanceHash: string := "instance_hash"

  /** The keys the grounding step writes and the integrity hash leaves out. */
  predicate IsMetadata(k: string)
  {
    k == TemporalGrounding || k == IntegrityHash || k == InstanceHash
  }

  // ---------------------------------------------------------------------
  // Stripping the metadata keys
  // ---------------------------------------------------------------------

  /** The three `content.pop(key, None)` calls, in the order the program makes them. */
  function StripMetadata(ms: seq<Member>): (r: seq<Member>)
    ensures forall k :: k in Keys(r) <==> k in Keys(ms) && !IsMetadata(k)
    ensures forall m :: m in r <==> m in ms && !IsMetadata(m.0)
    ensures forall k :: !IsMetadata(k) ==> Lookup(r, k) == Lookup(ms, k)
    ensures DistinctKeys(ms) ==> DistinctKeys(r)
  {
    Pop(Pop(Pop(ms, TemporalGrounding), IntegrityHash), InstanceHash)
  }

  /** Reference definition: the members whose key is not a metadata key, in their order. */
  function WithoutMetadata(ms: seq<Member>): seq<Member>
  {
    if |ms| == 0 then []
    else if IsMetadata(ms[0].0) then WithoutMetadata(ms[1..])
    else [ms[0]] + WithoutMetadata(ms[1..])
  }

  /** The three pops keep exactly the non-metadata members, in their original order. */
  lemma {:induction false} StripIsFilter(ms: seq<Member>)
    ensures StripMetadata(ms) == WithoutMetadata(ms)
  {
    if |ms| > 0 {
      StripIsFilter(ms[1..]);
    }
  }

  /** Assigning a metadata key leaves the stripped dict exactly as it was. */
  lemma {:induction false} WithoutMetadataSet(ms: seq<Member>, k: string, v: Json)
    requires IsMetadata(k)
    ensures WithoutMetadata(Set(ms, k, v)) == WithoutMetadata(ms)
  {
    if |ms| > 0 && ms[0].0 != k {
      WithoutMetadataSet(ms[1..], k, v);
      assert ([ms[0]] + Set(ms[1..], k, v))[1..] == Set(ms[1..], k, v);
    }
  }

  /** Removing a metadata key leaves the stripped dict exactly as it was. */
  lemma {:induction false} WithoutMetadataPop(ms: seq<Member>, k: string)
    requires IsMetadata(k)
    ensures WithoutMetadata(Pop(ms, k)) == WithoutMetadata(ms)
  {
    if |ms| > 0 {
      WithoutMetadataPop(ms[1..], k);
      if ms[0].0 != k {
        assert ([ms[0]] + Pop(ms[1..], k))[1..] == Pop(ms[1..], k);
      }
    }
  }

  /** How often each member occurs after `Pop`: members with key `k` vanish, the rest are kept. */
  lemma {:induction false} PopCount(ms: seq<Member>, k: string, m: Member)
    ensures multiset(Pop(ms, k))[m] == if m.0 == k then 0 else multiset(ms)[m]
  {
    if |ms| > 0 {
      PopCount(ms[1..], k, m);
      assert ms == [ms[0]] + ms[1..];
      if ms[0].0 != k {
        assert Pop(ms, k) == [ms[0]] + Pop(ms[1..], k);
      }
    }
  }

  /** Popping a key from two reorderings of a dict leaves two reorderings. */
  lemma PopReordered(ms: seq<Member>, ns: seq<Member>, k: string)
    requires multiset(ms) == multiset(ns)
    ensures multiset(Pop(ms, k)) == multiset(Pop(ns, k))
  {
    forall m ensures multiset(Pop(ms, k))[m] == multiset(Pop(ns, k))[m] {
      PopCount(ms, k, m);
      PopCount(ns, k, m);
    }
  }

  lemma StripReordered(ms: seq<Member>, ns: seq<Member>)
    requires multiset(ms) == multiset(ns)
    ensures multiset(StripMetadata(ms)) == multiset(StripMetadata(ns))
  {
    PopReordered(ms, ns, TemporalGrounding);
    PopReordered(Pop(ms, TemporalGrounding), Pop(ns, TemporalGrounding), IntegrityHash);
    PopReordered(Pop(Pop(ms, TemporalGrounding), IntegrityHash), Pop(Pop(ns, TemporalGrounding), IntegrityHash), InstanceHash);
  }

  /** Every member of a well-formed dict, after stripping, is still a well-formed dict. */
  lemma StripWellFormed(ms: seq<Member>)
    requires WellFormed(Obj(ms))
    ensures WellFormed(Obj(StripMetadata(ms)))
  {
    var r := StripMetadata(ms);
    forall i | 0 <= i < |r| ensures WellFormed(r[i].1) {
      assert r[i] in ms;
    }
  }

  // ---------------------------------------------------------------------
  // UTF-8 and hexadecimal rendering
  // ---------------------------------------------------------------------

  /** `str.encode('utf-8')` for one Unicode scalar value. */
  function Utf8Char(c: char): (r: seq<byte>)
    ensures 1 <= |r| <= 4
    ensures |r| == 1 <==> c as int < 0x80
    ensures |r| == 1 ==> r[0] == c as int
  {
    var n := c as int;
    if n < 0x80 then [n]
    else if n < 0x800 then [0xC0 + n / 0x40, 0x80 + n % 0x40]
    else if n < 0x10000 then [0xE0 + n / 0x1000, 0x80 + n / 0x40 % 0x40, 0x80 + n % 0x40]
    else [0xF0 + n / 0x40000, 0x80 + n / 0x1000 % 0x40, 0x80 + n / 0x40 % 0x40, 0x80 + n % 0x40]
  }

  function Utf8Encode(s: string): (r: seq<byte>)
    ensures |r| >= |s|
  {
    if |s| == 0 then [] else Utf8Char(s[0]) + Utf8Encode(s[1..])
  }

  /** Encoding a concatenation encodes each part in turn. */
  lemma {:induction false} Utf8EncodeAppend(a: string, b: string)
    ensures Utf8Encode(a + b) == Utf8Encode(a) + Utf8Encode(b)
  {
    if |a| == 0 {
      assert a + b == b;
    } else {
      assert (a + b)[0] == a[0] && (a + b)[1..] == a[1..] + b;
      Utf8EncodeAppend(a[1..], b);
    }
  }

  /** A single character encodes to its own UTF-8 bytes. */
  lemma Utf8EncodeChar(c: char)
    ensures Utf8Encode([c]) == Utf8Char(c)
  {
  }

  /** ASCII text encodes to one byte per character, equal to its code point. */
  lemma {:induction false} AsciiEncoding(s: string)
    requires forall i :: 0 <= i < |s| ==> s[i] as int < 0x80
    ensures |Utf8Encode(s)| == |s|
    ensures forall i :: 0 <= i < |s| ==> Utf8Encode(s)[i] == s[i] as int
  {
    if |s| > 0 {
      AsciiEncoding(s[1..]);
      assert Utf8Encode(s) == [s[0] as int] + Utf8Encode(s[1..]);
    }
  }

  lemma AsciiEncodingInjective(s: string, t: string)
    requires forall i :: 0 <= i < |s| ==> s[i] as int < 0x80
    requires forall i :: 0 <= i < |t| ==> t[i] as int < 0x80
    requires Utf8Encode(s) == Utf8Encode(t)
    ensures s == t
  {
    AsciiEncoding(s);
    AsciiEncoding(t);
    assert forall i :: 0 <= i < |s| ==> s[i] as int == t[i] as int;
  }

  /** `hexdigest()`: two lowercase hex digits per byte, high nibble first. */
  function HexDigest(bytes: seq<byte>): (r: string)
    ensures |r| == 2 * |bytes|
    ensures forall i :: 0 <= i < |r| ==> IsHexDigit(r[i])
  {
    if |bytes| == 0 then []
    else [HexDigit(bytes[0] / 16), HexDigit(bytes[0] % 16)] + HexDigest(bytes[1..])
  }

  /** Reads pairs of hex digits back into bytes. */
  function HexDecode(s: string): (r: Option<seq<byte>>)
    ensures r.Some? ==> 2 * |r.value| == |s|
  {
    if |s| == 0 then Some([])
    else if |s| == 1 then None
    else match (HexValue(s[0]), HexValue(s[1]), HexDecode(s[2..]))
      case (Some(hi), Some(lo), Some(rest)) => Some([hi * 16 + lo] + rest)
      case _ => None
  }

  /** The hex rendering loses nothing: decoding it gives the bytes back. */
  lemma {:induction false} HexRoundTrip(bytes: seq<byte>)
    ensures HexDecode(HexDigest(bytes)) == Some(bytes)
  {
    if |bytes| > 0 {
      var s := HexDigest(bytes);
      HexRoundTrip(bytes[1..]);
      HexDigitValue(bytes[0] / 16);
      HexDigitValue(bytes[0] % 16);
      assert s[2..] == HexDigest(bytes[1..]);
      assert bytes == [bytes[0]] + bytes[1..];
    }
  }

  lemma HexDigestInjective(a: seq<byte>, b: seq<byte>)
    requires HexDigest(a) == HexDigest(b)
    ensures a == b
  {
    HexRoundTrip(a);
    HexRoundTrip(b);
  }

  // ---------------------------------------------------------------------
  // generate_hash
  // ---------------------------------------------------------------------

  /** The dict that is written out: the copy, stripped when `excludeMetadata` holds. */
  function HashedDict(data: seq<Member>, excludeMetadata: bool): seq<Member>
  {
    if excludeMetadata then StripMetadata(data) else data
  }

  /** The text `json.dumps(content, sort_keys=True, separators=(',', ':'))`. */
  function HashText(data: seq<Member>, excludeMetadata: bool): (r: string)
    ensures forall i :: 0 <= i < |r| ==> Printable(r[i])
  {
    Dumps(Obj(HashedDict(data, excludeMetadata)))
  }

  /** The bytes handed to SHA-256: the text is printable ASCII, so one byte per character. */
  function HashInput(data: seq<Member>, excludeMetadata: bool): (r: seq<byte>)
    ensures |r| == |HashText(data, excludeMetadata)|
    ensures forall i :: 0 <= i < |r| ==> 0x20 <= r[i] <= 0x7E
  {
    var text := HashText(data, excludeMetadata);
    AsciiEncoding(text);
    Utf8Encode(text)
  }

  /** `generate_hash(data, exclude_metadata)` for a given SHA-256 function `sha`. */
  function GenerateHash(sha: seq<byte> -> Digest, data: seq<Member>, excludeMetadata: bool): (r: string)
    ensures |r| == 64
    ensures forall i :: 0 <= i < |r| ==> IsHexDigit(r[i])
    ensures HexDecode(r) == Some(sha(HashInput(data, excludeMetadata)))
  {
    HexRoundTrip(sha(HashInput(data, excludeMetadata)));
    HexDigest(sha(HashInput(data, excludeMetadata)))
  }

  /**
   For dicts whose nested dicts have distinct keys, two calls hand SHA-256 the
   same bytes exactly when the dicts they write out are the same dictionary
   tree, whatever the member order.
   */
  lemma HashInputEqualIffEquiv(ms: seq<Member>, ns: seq<Member>, excludeMetadata: bool)
    requires WellFormed(Obj(ms)) && WellFormed(Obj(ns))
    ensures HashInput(ms, excludeMetadata) == HashInput(ns, excludeMetadata)
        <==> Equiv(Obj(HashedDict(ms, excludeMetadata)), Obj(HashedDict(ns, excludeMetadata)))
  {
    var a := Obj(HashedDict(ms, excludeMetadata));
    var b := Obj(HashedDict(ns, excludeMetadata));
    if excludeMetadata {
      StripWellFormed(ms);
      StripWellFormed(ns);
    }
    var s := HashText(ms, excludeMetadata);
    var t := HashText(ns, excludeMetadata);
    AsciiEncoding(s);
    AsciiEncoding(t);
    if HashInput(ms, excludeMetadata) == HashInput(ns, excludeMetadata) {
      AsciiEncodingInjective(s, t);
    }
    DumpsEqualIffEquiv(a, b);
  }

  /** With metadata excluded, assigning a metadata key does not change the digest. */
  lemma HashIgnoresMetadataSet(sha: seq<byte> -> Digest, ms: seq<Member>, k: string, v: Json)
    requires IsMetadata(k)
    ensures GenerateHash(sha, Set(ms, k, v), true) == GenerateHash(sha, ms, true)
  {
    StripIsFilter(ms);
    StripIsFilter(Set(ms, k, v));
    WithoutMetadataSet(ms, k, v);
  }

  /** With metadata excluded, removing a metadata key does not change the digest. */
  lemma HashIgnoresMetadataPop(sha: seq<byte> -> Digest, ms: seq<Member>, k: string)
    requires IsMetadata(k)
    ensures GenerateHash(sha, Pop(ms, k), true) == GenerateHash(sha, ms, true)
  {
    StripIsFilter(ms);
    StripIsFilter(Pop(ms, k));
    WithoutMetadataPop(ms, k);
  }

  /** Inserting the same members in another order does not change the digest. */
  lemma HashIgnoresInsertionOrder(sha: seq<byte> -> Digest, ms: seq<Member>, ns: seq<Member>, excludeMetadata: bool)
    requires WellFormed(Obj(ms))
    requires multiset(ms) == multiset(ns)
    ensures GenerateHash(sha, ms, excludeMetadata) == GenerateHash(sha, ns, excludeMetadata)
  {
    if excludeMetadata {
      StripWellFormed(ms);
      StripReordered(ms, ns);
      DumpsIgnoresInsertionOrder(StripMetadata(ms), StripMetadata(ns));
    } else {
      DumpsIgnoresInsertionOrder(ms, ns);
    }
  }

  /** In equivalent dicts with distinct keys, the values under one key are equivalent. */
  lemma EquivLookup(ms: seq<Member>, ns: seq<Member>, k: string, v: Json, w: Json)
    requires DistinctKeys(ns)
    requires Equiv(Obj(ms), Obj(ns))
    requires Lookup(ms, k) == Some(v) && Lookup(ns, k) == Some(w)
    ensures Equiv(v, w)
  {
    var i :| 0 <= i < |ms| && ms[i] == (k, v);
    assert HasMatch(ms[i], ns);
    var j :| 0 <= j < |ns| && ns[j].0 == k && Equiv(v, ns[j].1);
    LookupMember(ns, k, ns[j].1);
  }

  /** Removing a key the dict holds makes it shorter. */
  lemma {:induction false} PopShortens(ms: seq<Member>, k: string)
    requires k in Keys(ms)
    ensures |Pop(ms, k)| < |ms|
  {
    if ms[0].0 != k {
      PopShortens(ms[1..], k);
    } else if k in Keys(ms[1..]) {
      PopShortens(ms[1..], k);
    } else {
      PopUnchanged(ms[1..], k);
    }
  }

  lemma {:induction false} PopUnchanged(ms: seq<Member>, k: string)
    requires k !in Keys(ms)
    ensures Pop(ms, k) == ms
  {
    if |ms| > 0 {
      PopUnchanged(ms[1..], k);
      assert ms == [ms[0]] + ms[1..];
    }
  }

  /** Removing the nested `integrity_hash` keeps the document well formed. */
  lemma NestedWellFormed(ms: seq<Member>, k: string, inner: seq<Member>)
    requires WellFormed(Obj(ms))
    requires Lookup(ms, k) == Some(Obj(inner))
    ensures WellFormed(Obj(Set(ms, k, Obj(Pop(inner, IntegrityHash)))))
  {
    var inner' := Pop(inner, IntegrityHash);
    var ns := Set(ms, k, Obj(inner'));
    assert (k, Obj(inner)) in ms;
    assert WellFormed(Obj(inner)) by {
      var i :| 0 <= i < |ms| && ms[i] == (k, Obj(inner));
    }
    forall i | 0 <= i < |ns| ensures WellFormed(ns[i].1) {
      if ns[i].0 != k {
        LookupMember(ns, ns[i].0, ns[i].1);
        assert Lookup(ms, ns[i].0) == Some(ns[i].1);
      } else {
        LookupMember(ns, k, ns[i].1);
        forall j | 0 <= j < |inner'| ensures WellFormed(inner'[j].1) {
          assert inner'[j] in inner;
        }
      }
    }
  }

  /**
   Stripping is top-level only: a nested dict's `integrity_hash` reaches the
   encoder, so removing it from a nested dict changes the bytes hashed.
   */
  lemma NestedMetadataIsHashed(ms: seq<Member>, k: string, inner: seq<Member>)
    requires WellFormed(Obj(ms))
    requires !IsMetadata(k)
    requires Lookup(ms, k) == Some(Obj(inner))
    requires IntegrityHash in Keys(inner)
    ensures HashInput(ms, true) != HashInput(Set(ms, k, Obj(Pop(inner, IntegrityHash))), true)
  {
    var inner' := Pop(inner, IntegrityHash);
    var ns := Set(ms, k, Obj(inner'));
    NestedWellFormed(ms, k, inner);
    PopShortens(inner, IntegrityHash);
    HashInputEqualIffEquiv(ms, ns, true);
    if Equiv(Obj(StripMetadata(ms)), Obj(StripMetadata(ns))) {
      EquivLookup(StripMetadata(ms), StripMetadata(ns), k, Obj(inner), Obj(inner'));
      assert false;
    }
  }
}

=== FILE: inttext.dfy ===
/**
 Integers as `json.dumps` writes them (Python's `int.__repr__`): an optional
 minus sign and decimal digits without leading zeros. `ParseInt` reads a number
 back the way RFC 8259 section 6 spells an integer.
 */
module IntText {
  import opened Wrappers

  predicate IsDigit(c: char)
  {
    '0' <= c <= '9'
  }

  function DigitChar(d: int): (c: char)
    requires 0 <= d < 10
    ensures IsDigit(c)
  {
    ('0' as int + d) as char
  }

  /** The decimal digits of a natural number, most significant first. */
  function NatToString(n: nat): (r: string)
    ensures 1 <= |r|
    ensures forall i :: 0 <= i < |r| ==> IsDigit(r[i])
    ensures r[0] == '0' ==> n == 0
    decreases n
  {
    if n < 10 then [DigitChar(n)] else NatToString(n / 10) + [DigitChar(n % 10)]
  }

  function IntToString(n: int): (r: string)
    ensures 1 <= |r|
    ensures r[0] == '-' <==> n < 0
    ensures n >= 0 ==> IsDigit(r[0])
    ensures forall i :: 0 < i < |r| ==> IsDigit(r[i])
  {
    if n < 0 then "-" + NatToString(-n) else NatToString(n)
  }

  /** The value of a run of decimal digits. */
  function DigitsValue(ds: string): nat
    requires forall i :: 0 <= i < |ds| ==> IsDigit(ds[i])
  {
    if |ds| == 0 then 0
    else
      assert IsDigit(ds[|ds| - 1]);
      DigitsValue(ds[..|ds| - 1]) * 10 + (ds[|ds| - 1] as int - '0' as int)
  }

  /** How many decimal digits `t` starts with. */
  function DigitSpan(t: string): (k: nat)
    ensures k <= |t|
    ensures forall i :: 0 <= i < k ==> IsDigit(t[i])
    ensures k < |t| ==> !IsDigit(t[k])
  {
    if |t| == 0 || !IsDigit(t[0]) then 0 else 1 + DigitSpan(t[1..])
  }

  /**
   Reads an integer at the front of `t`: an optional `-`, then a maximal run of
   digits that is `0` or does not start with `0`. Returns the value and the rest.
   */
  function ParseInt(t: string): (r: Option<(int, string)>)
    ensures r.Some? ==> |r.value.1| < |t|
  {
    var neg := |t| > 0 && t[0] == '-';
    var body := if neg then t[1..] else t;
    var k := DigitSpan(body);
    if k == 0 || (k > 1 && body[0] == '0') then None
    else
      var v: int := DigitsValue(body[..k]);
      Some((if neg then -v else v, body[k..]))
  }

  lemma {:induction false} DigitsOfNat(n: nat)
    ensures DigitsValue(NatToString(n)) == n
    decreases n
  {
    var r := NatToString(n);
    if n >= 10 {
      DigitsOfNat(n / 10);
      assert r[..|r| - 1] == NatToString(n / 10);
    }
  }

  lemma {:induction false} SpanOfDigits(ds: string, rest: string)
    requires forall i :: 0 <= i < |ds| ==> IsDigit(ds[i])
    requires |rest| == 0 || !IsDigit(rest[0])
    ensures DigitSpan(ds + rest) == |ds|
  {
    if |ds| > 0 {
      assert (ds + rest)[1..] == ds[1..] + rest;
      SpanOfDigits(ds[1..], rest);
    } else {
      assert ds + rest == rest;
    }
  }

  /** Reading back a written integer gives the integer and leaves the rest. */
  lemma IntRoundTrip(n: int, rest: string)
    requires |rest| == 0 || !IsDigit(rest[0])
    ensures ParseInt(IntToString(n) + rest) == Some((n, rest))
  {
    var ds := NatToString(if n < 0 then -n else n);
    var t := IntToString(n) + rest;
    var body := ds + rest;
    if n < 0 {
      assert t == "-" + body;
      assert t[1..] == body;
    } else {
      assert t == body;
    }
    SpanOfDigits(ds, rest);
    assert body[..|ds|] == ds;
    assert body[|ds|..] == rest;
    DigitsOfNat(if n < 0 then -n else n);
  }

  /** Different integers are written differently. */
  lemma IntToStringInjective(a: int, b: int)
    requires IntToString(a) == IntToString(b)
    ensures a == b
  {
    IntRoundTrip(a, []);
    IntRoundTrip(b, []);
    assert IntToString(a) + [] == IntToString(a);
    assert IntToString(b) + [] == IntToString(b);
  }
}

=== FILE: jsonvalue.dfy ===
/**
 The JSON value tree the program loads with `json.load` and hashes with
 `json.dumps`. A Python dict is an insertion-ordered sequence of members
 whose keys are pairwise distinct; numbers are restricted to integers.
 */
module JsonValue {
  import opened Wrappers

  datatype Json =
    | Null
    | Bool(b: bool)
    | Int(n: int)
    | Str(s: string)
    | Arr(items: seq<Json>)
    | Obj(members: seq<Member>)

  /** One `key: value` entry of a dict, in insertion order. */
  type Member = (string, Json)

  function Keys(ms: seq<Member>): set<string>
  {
    if |ms| == 0 then {} else {ms[0].0} + Keys(ms[1..])
  }

  lemma {:induction false} KeysIn(ms: seq<Member>, k: string)
    ensures k in Keys(ms) <==> exists i :: 0 <= i < |ms| && ms[i].0 == k
  {
    if |ms| > 0 {
      KeysIn(ms[1..], k);
      if k in Keys(ms[1..]) {
        var i :| 0 <= i < |ms[1..]| && ms[1..][i].0 == k;
        assert ms[i + 1].0 == k;
      }
      if k != ms[0].0 && exists i :: 0 <= i < |ms| && ms[i].0 == k {
        var i :| 0 <= i < |ms| && ms[i].0 == k;
        assert ms[1..][i - 1].0 == k;
      }
    }
  }

  /** No key occurs twice. */
  predicate DistinctKeys(ms: seq<Member>)
  {
    |ms| == 0 || (ms[0].0 !in Keys(ms[1..]) && DistinctKeys(ms[1..]))
  }

  /** The same property, stated over positions. */
  lemma {:induction false} DistinctKeysAt(ms: seq<Member>)
    ensures DistinctKeys(ms) <==> forall i, j :: 0 <= i < j < |ms| ==> ms[i].0 != ms[j].0
  {
    if |ms| > 0 {
      DistinctKeysAt(ms[1..]);
      KeysIn(ms[1..], ms[0].0);
      if DistinctKeys(ms) {
        forall i, j | 0 <= i < j < |ms| ensures ms[i].0 != ms[j].0 {
          if i > 0 {
            assert ms[1..][i - 1] == ms[i] && ms[1..][j - 1] == ms[j];
          } else {
            assert ms[1..][j - 1] == ms[j];
          }
        }
      }
      if forall i, j :: 0 <= i < j < |ms| ==> ms[i].0 != ms[j].0 {
        forall i, j | 0 <= i < j < |ms[1..]| ensures ms[1..][i].0 != ms[1..][j].0 {
          assert ms[1..][i] == ms[i + 1] && ms[1..][j] == ms[j + 1];
        }
      }
    }
  }

  /** Every dict in the tree has distinct keys, as every Python dict does. */
  predicate WellFormed(j: Json)
    decreases j
  {
    match j
    case Arr(items) => forall i :: 0 <= i < |items| ==> WellFormed(items[i])
    case Obj(ms) => DistinctKeys(ms) && forall i :: 0 <= i < |ms| ==> WellFormed(ms[i].1)
    case _ => true
  }

  /** `d[k]`: the value of the first member with key `k`, or `None` when `k` is not a key. */
  function Lookup(ms: seq<Member>, k: string): (r: Option<Json>)
    ensures r.Some? <==> k in Keys(ms)
    ensures r.Some? ==> (k, r.value) in ms
  {
    if |ms| == 0 then None
    else if ms[0].0 == k then Some(ms[0].1)
    else Lookup(ms[1..], k)
  }

  /** In a dict with distinct keys, a member is found by its own key. */
  lemma {:induction false} LookupMember(ms: seq<Member>, k: string, v: Json)
    requires DistinctKeys(ms)
    requires (k, v) in ms
    ensures Lookup(ms, k) == Some(v)
  {
    if ms[0] != (k, v) {
      var i :| 0 <= i < |ms| && ms[i] == (k, v);
      assert ms[1..][i - 1] == (k, v);
      KeysIn(ms[1..], k);
      LookupMember(ms[1..], k, v);
    }
  }

  /**
   `d[k] = v`: an existing key keeps its position and takes the new value,
   a new key is appended at the end.
   */
  function Set(ms: seq<Member>, k: string, v: Json): (r: seq<Member>)
    ensures Keys(r) == Keys(ms) + {k}
    ensures Lookup(r, k) == Some(v)
    ensures forall k' :: k' != k ==> Lookup(r, k') == Lookup(ms, k')
    ensures DistinctKeys(ms) ==> DistinctKeys(r)
  {
    if |ms| == 0 then [(k, v)]
    else if ms[0].0 == k then [(k, v)] + ms[1..]
    else
      var r := [ms[0]] + Set(ms[1..], k, v);
      assert r[1..] == Set(ms[1..], k, v);
      r
  }

  /** Assigning a key the dict does not hold appends exactly one member. */
  lemma {:induction false} SetAppends(ms: seq<Member>, k: string, v: Json)
    requires k !in Keys(ms)
    ensures Set(ms, k, v) == ms + [(k, v)]
  {
    if |ms| > 0 {
      SetAppends(ms[1..], k, v);
      assert ms == [ms[0]] + ms[1..];
    }
  }

  /** `d.pop(k, None)`: the member with key `k`, if any, is removed; the rest keep their order. */
  function Pop(ms: seq<Member>, k: string): (r: seq<Member>)
    ensures Keys(r) == Keys(ms) - {k}
    ensures Lookup(r, k) == None
    ensures forall k' :: k' != k ==> Lookup(r, k') == Lookup(ms, k')
    ensures forall m :: m in r <==> m in ms && m.0 != k
    ensures DistinctKeys(ms) ==> DistinctKeys(r)
  {
    if |ms| == 0 then []
    else if ms[0].0 == k then Pop(ms[1..], k)
    else
      var r := [ms[0]] + Pop(ms[1..], k);
      assert r[1..] == Pop(ms[1..], k);
      r
  }
}

=== FILE: keyorder.dfy ===
/**
 The order in which the canonical encoder emits object keys: Python compares
 strings code point by code point, and a proper prefix sorts first.
 */
module KeyOrder {

  /** Lexicographic "strictly less" over code points. */
  predicate Less(a: string, b: string)
    decreases |a|
  {
    if |a| == 0 then |b| > 0
    else if |b| == 0 then false
    else if a[0] == b[0] then Less(a[1..], b[1..])
    else a[0] < b[0]
  }

  /** A proper prefix sorts before the longer string. */
  lemma {:induction false} LessPrefix(a: string, b: string)
    requires |a| < |b| && b[..|a|] == a
    ensures Less(a, b)
    decreases |a|
  {
    if |a| > 0 {
      assert a[0] == b[0];
      assert b[1..][..|a| - 1] == a[1..];
      LessPrefix(a[1..], b[1..]);
    }
  }

  /** At the first position where two strings differ, the smaller code point sorts first. */
  lemma {:induction false} LessFirstDifference(a: string, b: string, i: nat)
    requires i < |a| && i < |b| && a[..i] == b[..i] && a[i] != b[i]
    ensures Less(a, b) <==> a[i] < b[i]
    decreases i
  {
    if i > 0 {
      assert a[0] == a[..i][0] == b[..i][0] == b[0];
      assert a[1..][..i - 1] == a[..i][1..] == b[..i][1..] == b[1..][..i - 1];
      LessFirstDifference(a[1..], b[1..], i - 1);
    }
  }

  lemma {:induction false} LessIrreflexive(a: string)
    ensures !Less(a, a)
    decreases |a|
  {
    if |a| > 0 {
      LessIrreflexive(a[1..]);
    }
  }

  lemma {:induction false} LessTransitive(a: string, b: string, c: string)
    requires Less(a, b) && Less(b, c)
    ensures Less(a, c)
    decreases |a|
  {
    if |a| > 0 && a[0] == b[0] && b[0] == c[0] {
      LessTransitive(a[1..], b[1..], c[1..]);
    }
  }

  /** Two different keys are always ordered one way or the other. */
  lemma {:induction false} LessTotal(a: string, b: string)
    requires a != b
    ensures Less(a, b) || Less(b, a)
    decreases |a|
  {
    if |a| > 0 && |b| > 0 && a[0] == b[0] {
      assert a == [a[0]] + a[1..] && b == [b[0]] + b[1..];
      LessTotal(a[1..], b[1..]);
    }
  }

  lemma {:induction false} LessAsymmetric(a: string, b: string)
    requires Less(a, b)
    ensures !Less(b, a)
  {
    if Less(b, a) {
      LessTransitive(a, b, a);
      LessIrreflexive(a);
    }
  }
}

=== FILE: lexical.dfy ===
/**
 The lexical shape of the canonical text. A scanner that keeps the quotes of
 every string literal but drops what lies between them shows what the text is
 outside its literals: the skeleton of the tree, with `,` between items and
 members, `:` after each key, and no whitespace anywhere.
 */
module Lexical {
  import opened JsonValue
  import opened StringEscape
  import opened IntText
  import opened Canonical

  /** JSON's insignificant whitespace (section 2 of RFC 8259). */
  predicate IsWhitespace(c: char)
  {
    c == ' ' || c == '\t' || c == '\n' || c == '\r'
  }

  /** The text outside string literals; each literal is kept as its two quotes. */
  function Outside(t: string): string
    decreases |t|
  {
    if |t| == 0 then []
    else if t[0] == '"' then "\"" + Inside(t[1..])
    else [t[0]] + Outside(t[1..])
  }

  /** Scans the body of a literal up to its closing quote; a backslash hides the next character. */
  function Inside(t: string): string
    decreases |t|
  {
    if |t| == 0 then []
    else if t[0] == '\\' then (if |t| < 2 then [] else Inside(t[2..]))
    else if t[0] == '"' then "\"" + Outside(t[1..])
    else Inside(t[1..])
  }

  /** What the canonical writer puts outside string literals, for each kind of value. */
  function Skeleton(j: Json): (r: string)
    ensures forall i :: 0 <= i < |r| ==> !IsWhitespace(r[i])
    decreases j
  {
    match j
    case Null => "null"
    case Bool(b) => if b then "true" else "false"
    case Int(n) => IntToString(n)
    case Str(_) => "\"\""
    case Arr(items) => "[" + SkeletonItems(items) + "]"
    case Obj(ms) => "{" + SkeletonMembers(ms) + "}"
  }

  function SkeletonItems(items: seq<Json>): (r: string)
    ensures forall i :: 0 <= i < |r| ==> !IsWhitespace(r[i])
    decreases items
  {
    if |items| == 0 then ""
    else if |items| == 1 then Skeleton(items[0])
    else Skeleton(items[0]) + "," + SkeletonItems(items[1..])
  }

  function SkeletonMembers(ms: seq<Member>): (r: string)
    ensures forall i :: 0 <= i < |r| ==> !IsWhitespace(r[i])
    decreases ms
  {
    if |ms| == 0 then ""
    else if |ms| == 1 then SkeletonMember(ms[0])
    else SkeletonMember(ms[0]) + "," + SkeletonMembers(ms[1..])
  }

  function SkeletonMember(m: Member): (r: string)
    ensures forall i :: 0 <= i < |r| ==> !IsWhitespace(r[i])
    decreases m
  {
    "\"\":" + Skeleton(m.1)
  }

  /** Characters that are neither a quote nor a backslash pass through a literal's body. */
  lemma {:induction false} InsidePlain(p: string, rest: string)
    requires forall i :: 0 <= i < |p| ==> p[i] != '"' && p[i] != '\\'
    ensures Inside(p + rest) == Inside(rest)
  {
    if |p| > 0 {
      var t := p + rest;
      assert t[0] == p[0] && t[1..] == p[1..] + rest;
      InsidePlain(p[1..], rest);
    } else {
      assert p + rest == rest;
    }
  }

  /** Text without quotes is copied unchanged outside literals. */
  lemma {:induction false} OutsidePlain(p: string, rest: string)
    requires forall i :: 0 <= i < |p| ==> p[i] != '"'
    ensures Outside(p + rest) == p + Outside(rest)
  {
    if |p| > 0 {
      var t := p + rest;
      assert t[0] == p[0] && t[1..] == p[1..] + rest;
      OutsidePlain(p[1..], rest);
      assert p + Outside(rest) == [p[0]] + (p[1..] + Outside(rest));
    } else {
      assert p + rest == rest;
    }
  }

  /** A `\uXXXX` escape is skipped as a whole. */
  lemma InsideUnicodeEscape(n: int, rest: string)
    requires 0 <= n < 0x10000
    ensures Inside("\\u" + Hex4(n) + rest) == Inside(rest)
  {
    assert ("\\u" + Hex4(n) + rest)[2..] == Hex4(n) + rest;
    InsidePlain(Hex4(n), rest);
  }

  /** A two-character escape is skipped as a whole. */
  lemma InsideShortEscape(e: string, rest: string)
    requires |e| == 2 && e[0] == '\\'
    ensures Inside(e + rest) == Inside(rest)
  {
    assert (e + rest)[0] == '\\';
    assert (e + rest)[2..] == rest;
  }

  /** A surrogate pair of escapes is skipped as a whole. */
  lemma InsideSurrogatePair(hi: int, lo: int, rest: string)
    requires 0 <= hi < 0x10000 && 0 <= lo < 0x10000
    ensures Inside("\\u" + Hex4(hi) + "\\u" + Hex4(lo) + rest) == Inside(rest)
  {
    var second := "\\u" + Hex4(lo) + rest;
    assert "\\u" + Hex4(hi) + "\\u" + Hex4(lo) + rest == "\\u" + Hex4(hi) + second;
    InsideUnicodeEscape(hi, second);
    InsideUnicodeEscape(lo, rest);
  }

  /** The escaped form of any character is skipped inside a literal. */
  lemma InsideEscapeChar(c: char, rest: string)
    ensures Inside(EscapeChar(c) + rest) == Inside(rest)
  {
    var e := EscapeChar(c);
    var n := c as int;
    if |e| == 1 {
      InsidePlain(e, rest);
    } else if |e| == 2 {
      InsideShortEscape(e, rest);
    } else if n < 0x10000 {
      InsideUnicodeEscape(n, rest);
    } else {
      InsideAstral(c, rest);
    }
  }

  /** The surrogate-pair escape of a character beyond the Basic Multilingual Plane is skipped. */
  lemma InsideAstral(c: char, rest: string)
    requires c as int >= 0x10000
    ensures Inside(EscapeChar(c) + rest) == Inside(rest)
  {
    var m := c as int - 0x10000;
    var hi, lo := 0xD800 + m / 0x400, 0xDC00 + m % 0x400;
    EscapeAstralText(c, rest);
    Associate("\\u", Hex4(hi), "\\u" + Hex4(lo) + rest);
    Associate("\\u" + Hex4(hi), "\\u" + Hex4(lo), rest);
    Associate("\\u" + Hex4(hi), "\\u", Hex4(lo));
    Associate(Hex4(hi), "\\u" + Hex4(lo), rest);
    InsideSurrogatePair(hi, lo, rest);
  }

  lemma {:induction false} InsideEscapeBody(s: string, rest: string)
    ensures Inside(EscapeBody(s) + rest) == Inside(rest)
  {
    if |s| > 0 {
      InsideEscapeBody(s[1..], rest);
      assert EscapeBody(s) == EscapeChar(s[0]) + EscapeBody(s[1..]);
      Associate(EscapeChar(s[0]), EscapeBody(s[1..]), rest);
      InsideEscapeChar(s[0], EscapeBody(s[1..]) + rest);
    } else {
      assert EscapeBody(s) + rest == rest;
    }
  }

  /** Proof helper: an opening quote starts a literal. */
  lemma OutsideQuoteStart(u: string)
    ensures Outside("\"" + u) == "\"" + Inside(u)
  {
    assert ("\"" + u)[0] == '"' && ("\"" + u)[1..] == u;
  }

  /** Proof helper: a closing quote ends a literal. */
  lemma InsideQuoteStart(u: string)
    ensures Inside("\"" + u) == "\"" + Outside(u)
  {
    assert ("\"" + u)[0] == '"' && ("\"" + u)[1..] == u;
  }

  /** A written string literal leaves only its two quotes outside. */
  lemma OutsideQuote(s: string, rest: string)
    ensures Outside(Quote(s) + rest) == "\"\"" + Outside(rest)
  {
    var body := EscapeBody(s) + "\"" + rest;
    QuoteText(s, rest);
    Associate(EscapeBody(s), "\"", rest);
    OutsideQuoteStart(body);
    InsideEscapeBody(s, "\"" + rest);
    InsideQuoteStart(rest);
  }

  /** Brackets around a body whose skeleton is known. */
  lemma OutsideBracketed(open: string, body: string, close: string, rest: string, skel: string)
    requires |open| == 1 && open[0] != '"' && |close| == 1 && close[0] != '"'
    requires Outside(body + (close + rest)) == skel + Outside(close + rest)
    ensures Outside(open + body + close + rest) == open + skel + close + Outside(rest)
  {
    Regroup(open, body, close, rest);
    OutsidePlain(open, body + (close + rest));
    OutsidePlain(close, rest);
    Regroup(open, skel, close, Outside(rest));
  }

  /** Outside its string literals, the written text of a value is its skeleton. */
  lemma {:induction false} OutsideSerialize(j: Json, rest: string)
    ensures Outside(Serialize(j) + rest) == Skeleton(j) + Outside(rest)
    decreases j
  {
    match j
    case Str(s) =>
      OutsideQuote(s, rest);
    case Arr(items) =>
      OutsideSerializeItems(items, "]" + rest);
      OutsideBracketed("[", SerializeItems(items), "]", rest, SkeletonItems(items));
    case Obj(ms) =>
      OutsideSerializeMembers(ms, "}" + rest);
      OutsideBracketed("{", SerializeMembers(ms), "}", rest, SkeletonMembers(ms));
    case Int(n) =>
      OutsidePlain(IntToString(n), rest);
    case Null =>
      OutsidePlain("null", rest);
    case Bool(b) =>
      OutsidePlain(if b then "true" else "false", rest);
  }

  lemma {:induction false} OutsideSerializeItems(items: seq<Json>, rest: string)
    ensures Outside(SerializeItems(items) + rest) == SkeletonItems(items) + Outside(rest)
    decreases items
  {
    if |items| == 0 {
      assert SerializeItems(items) + rest == rest;
    } else if |items| == 1 {
      OutsideSerialize(items[0], rest);
    } else {
      var head := Serialize(items[0]);
      var more := SerializeItems(items[1..]) + rest;
      Regroup(head, ",", SerializeItems(items[1..]), rest);
      OutsideSerialize(items[0], "," + more);
      OutsideComma(more);
      OutsideSerializeItems(items[1..], rest);
      SkeletonItemsStep(items, Outside(rest));
    }
  }

  /** Proof helper: a comma is copied outside literals. */
  lemma OutsideComma(more: string)
    ensures Outside("," + more) == "," + Outside(more)
  {
    OutsidePlain(",", more);
  }

  /** Proof helper: regrouping the skeleton of several items. */
  lemma SkeletonItemsStep(items: seq<Json>, after: string)
    requires |items| > 1
    ensures SkeletonItems(items) + after == Skeleton(items[0]) + ("," + (SkeletonItems(items[1..]) + after))
  {
    Regroup(Skeleton(items[0]), ",", SkeletonItems(items[1..]), after);
  }

  /** Proof helper: regrouping the skeleton of several members. */
  lemma SkeletonMembersStep(ms: seq<Member>, after: string)
    requires |ms| > 1
    ensures SkeletonMembers(ms) + after == SkeletonMember(ms[0]) + ("," + (SkeletonMembers(ms[1..]) + after))
  {
    Regroup(SkeletonMember(ms[0]), ",", SkeletonMembers(ms[1..]), after);
  }

  lemma {:induction false} OutsideSerializeMembers(ms: seq<Member>, rest: string)
    ensures Outside(SerializeMembers(ms) + rest) == SkeletonMembers(ms) + Outside(rest)
    decreases ms
  {
    if |ms| == 0 {
      assert SerializeMembers(ms) + rest == rest;
    } else if |ms| == 1 {
      OutsideSerializeMember(ms[0], rest);
    } else {
      var more := SerializeMembers(ms[1..]) + rest;
      Regroup(SerializeMember(ms[0]), ",", SerializeMembers(ms[1..]), rest);
      OutsideSerializeMember(ms[0], "," + more);
      OutsideComma(more);
      OutsideSerializeMembers(ms[1..], rest);
      SkeletonMembersStep(ms, Outside(rest));
    }
  }

  lemma {:induction false} OutsideSerializeMember(m: Member, rest: string)
    ensures Outside(SerializeMember(m) + rest) == SkeletonMember(m) + Outside(rest)
    decreases m
  {
    var valueText := Serialize(m.1) + rest;
    assert SerializeMember(m) + rest == Quote(m.0) + ":" + valueText;
    OutsideKey(m.0, valueText);
    OutsideSerialize(m.1, rest);
  }

  /** A written key and its colon leave `"":` outside literals. */
  lemma OutsideKey(k: string, u: string)
    ensures Outside(Quote(k) + ":" + u) == "\"\":" + Outside(u)
  {
    assert Quote(k) + ":" + u == Quote(k) + (":" + u);
    OutsideQuote(k, ":" + u);
    OutsidePlain(":", u);
  }

  /**
   The canonical text of any document has no whitespace outside its string
   literals, and outside them it is exactly the skeleton of the sorted tree.
   */
  lemma DumpsHasNoWhitespace(j: Json)
    ensures Outside(Dumps(j)) == Skeleton(SortKeys(j))
    ensures forall i :: 0 <= i < |Outside(Dumps(j))| ==> !IsWhitespace(Outside(Dumps(j))[i])
  {
    OutsideSerialize(SortKeys(j), []);
    assert Dumps(j) + [] == Dumps(j);
    assert Skeleton(SortKeys(j)) + [] == Skeleton(SortKeys(j));
  }
}

=== FILE: parser.dfy ===
/**
 A JSON reader for the integer subset of RFC 8259, the inverse of the
 canonical writer. Reading back what `Serialize` wrote yields the same tree,
 which makes the canonical text a faithful (injective) encoding.
 */
module JsonParser {
  import opened Wrappers
  import opened JsonValue
  import opened StringEscape
  import opened IntText
  import opened Canonical

  /** Reads one value at the front of `t`; returns it with the text after it. */
  function ParseValue(t: string): (r: Option<(Json, string)>)
    ensures r.Some? ==> |r.value.1| < |t|
    decreases |t|, 0
  {
    if |t| == 0 then None
    else if t[0] == 'n' then ParseLiteral(t, "null", Null)
    else if t[0] == 't' then ParseLiteral(t, "true", Bool(true))
    else if t[0] == 'f' then ParseLiteral(t, "false", Bool(false))
    else if t[0] == '"' then ParseStr(t[1..])
    else if t[0] == '[' then ParseArray(t[1..])
    else if t[0] == '{' then ParseObject(t[1..])
    else if t[0] == '-' || IsDigit(t[0]) then ParseNumber(t)
    else None
  }

  /** `null`, `true` or `false` spelled out in full. */
  function ParseLiteral(t: string, word: string, v: Json): (r: Option<(Json, string)>)
    requires |word| > 0
    ensures r.Some? ==> |r.value.1| < |t|
  {
    if |t| >= |word| && t[..|word|] == word then Some((v, t[|word|..])) else None
  }

  /** A string literal, after its opening quote. */
  function ParseStr(u: string): (r: Option<(Json, string)>)
    ensures r.Some? ==> |r.value.1| < |u|
  {
    match ParseString(u)
    case None => None
    case Some((s, rest)) => Some((Str(s), rest))
  }

  function ParseNumber(t: string): (r: Option<(Json, string)>)
    ensures r.Some? ==> |r.value.1| < |t|
  {
    match ParseInt(t)
    case None => None
    case Some((n, rest)) => Some((Int(n), rest))
  }

  /** A list, after its opening bracket. */
  function ParseArray(u: string): (r: Option<(Json, string)>)
    ensures r.Some? ==> |r.value.1| < |u|
    decreases |u|, 2
  {
    if |u| > 0 && u[0] == ']' then Some((Arr([]), u[1..])) else ParseItems(u, [])
  }

  /** A dict, after its opening brace. */
  function ParseObject(u: string): (r: Option<(Json, string)>)
    ensures r.Some? ==> |r.value.1| < |u|
    decreases |u|, 2
  {
    if |u| > 0 && u[0] == '}' then Some((Obj([]), u[1..])) else ParseMembers(u, [])
  }

  /** Reads `value (, value)* ]` after `acc`, the items already read. */
  function ParseItems(t: string, acc: seq<Json>): (r: Option<(Json, string)>)
    ensures r.Some? ==> |r.value.1| < |t|
    decreases |t|, 1
  {
    match ParseValue(t)
    case None => None
    case Some((v, rest)) =>
      if |rest| > 0 && rest[0] == ',' then ParseItems(rest[1..], acc + [v])
      else if |rest| > 0 && rest[0] == ']' then Some((Arr(acc + [v]), rest[1..]))
      else None
  }

  /** Reads `"key":value (, "key":value)* }` after `acc`, the members already read. */
  function ParseMembers(t: string, acc: seq<Member>): (r: Option<(Json, string)>)
    ensures r.Some? ==> |r.value.1| < |t|
    decreases |t|, 1
  {
    if |t| == 0 || t[0] != '"' then None
    else match ParseString(t[1..])
      case None => None
      case Some((k, rest)) =>
        if |rest| == 0 || rest[0] != ':' then None else ParseMemberValue(k, rest[1..], acc)
  }

  /** Reads the value of the member with key `k`, then `,` and more members or the closing `}`. */
  function ParseMemberValue(k: string, u: string, acc: seq<Member>): (r: Option<(Json, string)>)
    ensures r.Some? ==> |r.value.1| < |u|
    decreases |u|, 1
  {
    match ParseValue(u)
    case None => None
    case Some((v, after)) =>
      if |after| > 0 && after[0] == ',' then ParseMembers(after[1..], acc + [(k, v)])
      else if |after| > 0 && after[0] == '}' then Some((Obj(acc + [(k, v)]), after[1..]))
      else None
  }

  /** A whole document: one value and nothing after it. */
  function ParseJson(t: string): Option<Json>
  {
    match ParseValue(t)
    case Some((v, rest)) => if |rest| == 0 then Some(v) else None
    case None => None
  }

  /** What may follow a value in the writer's output. */
  predicate Delimited(rest: string)
  {
    |rest| == 0 || rest[0] == ',' || rest[0] == ']' || rest[0] == '}'
  }

  lemma SerializeFirstChar(j: Json)
    ensures Serialize(j)[0] != ']' && Serialize(j)[0] != '}'
  {
    if j.Int? {
      assert IntToString(j.n)[0] == '-' || IsDigit(IntToString(j.n)[0]);
    }
  }

  lemma ParseLiteralText(j: Json, rest: string)
    requires j.Null? || j.Bool?
    ensures ParseValue(Serialize(j) + rest) == Some((j, rest))
  {
    var w := Serialize(j);
    var t := w + rest;
    assert t[..|w|] == w && t[|w|..] == rest;
  }

  lemma ParseIntText(n: int, rest: string)
    requires Delimited(rest)
    ensures ParseValue(Serialize(Int(n)) + rest) == Some((Int(n), rest))
  {
    var t := IntToString(n) + rest;
    IntRoundTrip(n, rest);
    assert t[0] == IntToString(n)[0];
    ParseValueNumber(t);
  }

  /** A value that starts with `-` or a digit is a number. */
  lemma ParseValueNumber(t: string)
    requires |t| > 0 && (t[0] == '-' || IsDigit(t[0]))
    ensures ParseValue(t) == ParseNumber(t)
  {
    var c := t[0];
    assert c != 'n' && c != 't' && c != 'f' && c != '"' && c != '[' && c != '{';
  }

  /** A value that starts with `"` is a string literal. */
  lemma ParseValueQuote(u: string)
    ensures ParseValue("\"" + u) == ParseStr(u)
  {
    var t := "\"" + u;
    assert t[0] == '"' && t[1..] == u;
  }

  /** A value that starts with `[` is a list. */
  lemma ParseValueBracket(u: string)
    ensures ParseValue("[" + u) == ParseArray(u)
  {
    var t := "[" + u;
    assert t[0] == '[' && t[1..] == u;
  }

  /** A value that starts with `{` is a dict. */
  lemma ParseValueBrace(u: string)
    ensures ParseValue("{" + u) == ParseObject(u)
  {
    var t := "{" + u;
    assert t[0] == '{' && t[1..] == u;
  }

  lemma ParseStrText(s: string, rest: string)
    ensures ParseValue(Serialize(Str(s)) + rest) == Some((Str(s), rest))
  {
    var u := EscapeBody(s) + "\"" + rest;
    assert Serialize(Str(s)) == Quote(s);
    QuoteText(s, rest);
    ParseValueQuote(u);
    EscapeRoundTrip(s, rest);
  }

  lemma ParseArrayText(items: seq<Json>, rest: string)
    requires |items| > 0
    requires ParseItems(SerializeItems(items) + "]" + rest, []) == Some((Arr(items), rest))
    ensures ParseValue(Serialize(Arr(items)) + rest) == Some((Arr(items), rest))
  {
    var u := SerializeItems(items) + "]" + rest;
    Regroup("[", SerializeItems(items), "]", rest);
    Associate(SerializeItems(items), "]", rest);
    ParseValueBracket(u);
    SerializeFirstChar(items[0]);
    assert u[0] == Serialize(items[0])[0];
  }

  lemma ParseObjectText(ms: seq<Member>, rest: string)
    requires |ms| > 0
    requires ParseMembers(SerializeMembers(ms) + "}" + rest, []) == Some((Obj(ms), rest))
    ensures ParseValue(Serialize(Obj(ms)) + rest) == Some((Obj(ms), rest))
  {
    var u := SerializeMembers(ms) + "}" + rest;
    Regroup("{", SerializeMembers(ms), "}", rest);
    Associate(SerializeMembers(ms), "}", rest);
    ParseValueBrace(u);
    assert u[0] == '"';
  }

  /** An empty list or dict: its two brackets, then what follows. */
  lemma ParseEmptyText(open: string, close: string, rest: string)
    requires (open, close) == ("[", "]") || (open, close) == ("{", "}")
    ensures ParseValue(open + "" + close + rest) == Some((if open == "[" then Arr([]) else Obj([]), rest))
  {
    var t := open + "" + close + rest;
    assert t[0] == open[0] && t[1] == close[0] && t[2..] == rest;
    assert t[1..][0] == close[0] && t[1..][1..] == rest;
  }

  /** Reading back the written text of a value gives the value and leaves what follows. */
  lemma {:induction false} ParseSerialize(j: Json, rest: string)
    requires Delimited(rest)
    ensures ParseValue(Serialize(j) + rest) == Some((j, rest))
    decreases j
  {
    match j
    case Arr(items) =>
      if |items| == 0 {
        ParseEmptyText("[", "]", rest);
      } else {
        ParseSerializeItems(items, [], rest);
        assert [] + items == items;
        ParseArrayText(items, rest);
      }
    case Obj(ms) =>
      if |ms| == 0 {
        ParseEmptyText("{", "}", rest);
      } else {
        ParseSerializeMembers(ms, [], rest);
        assert [] + ms == ms;
        ParseObjectText(ms, rest);
      }
    case Str(s) =>
      ParseStrText(s, rest);
    case Int(n) =>
      ParseIntText(n, rest);
    case _ =>
      ParseLiteralText(j, rest);
  }

  lemma {:induction false} ParseSerializeItems(items: seq<Json>, acc: seq<Json>, rest: string)
    requires |items| > 0
    ensures ParseItems(SerializeItems(items) + "]" + rest, acc) == Some((Arr(acc + items), rest))
    decreases items
  {
    var t := SerializeItems(items) + "]" + rest;
    if |items| == 1 {
      assert t == Serialize(items[0]) + ("]" + rest);
      ParseSerialize(items[0], "]" + rest);
      assert ("]" + rest)[1..] == rest;
      assert acc + [items[0]] == acc + items;
    } else {
      var more := SerializeItems(items[1..]) + "]" + rest;
      assert t == Serialize(items[0]) + ("," + more);
      ParseSerialize(items[0], "," + more);
      assert ("," + more)[1..] == more;
      ParseSerializeItems(items[1..], acc + [items[0]], rest);
      assert acc + [items[0]] + items[1..] == acc + items;
    }
  }

  /** The value of one member reads back. */
  lemma {:induction false} ParseMemberValueText(m: Member, rest: string)
    requires Delimited(rest)
    ensures ParseValue(Serialize(m.1) + rest) == Some((m.1, rest))
    decreases m, 0
  {
    ParseSerialize(m.1, rest);
  }

  /** Reading a member whose key reads back continues at its value. */
  lemma ParseMembersKeyed(t: string, k: string, rest: string, acc: seq<Member>)
    requires |t| > 0 && t[0] == '"' && ParseString(t[1..]) == Some((k, rest))
    requires |rest| > 0 && rest[0] == ':'
    ensures ParseMembers(t, acc) == ParseMemberValue(k, rest[1..], acc)
  {
  }

  /** A quoted key followed by `:` reads back, and reading continues after the colon. */
  lemma ParseQuotedKey(k: string, u: string, acc: seq<Member>)
    ensures ParseMembers(Quote(k) + ":" + u, acc) == ParseMemberValue(k, u, acc)
  {
    var tail := ":" + u;
    var t := Quote(k) + tail;
    assert Quote(k) + ":" + u == t;
    assert t[1..] == EscapeBody(k) + "\"" + tail;
    EscapeRoundTrip(k, tail);
    assert tail[1..] == u;
    ParseMembersKeyed(t, k, tail, acc);
  }

  /** Proof helper: regrouping a written member and what follows it. */
  lemma MemberText(key: string, value: string, after: string)
    ensures key + ":" + value + after == key + ":" + (value + after)
  {
  }

  /** The key of a written member reads back, and reading continues at its value. */
  lemma ParseMemberKey(m: Member, after: string, acc: seq<Member>)
    ensures ParseMembers(SerializeMember(m) + after, acc) == ParseMemberValue(m.0, Serialize(m.1) + after, acc)
  {
    var u := Serialize(m.1) + after;
    MemberText(Quote(m.0), Serialize(m.1), after);
    ParseQuotedKey(m.0, u, acc);
  }

  /** Reading one written member, given that its value reads back. */
  lemma ParseMemberStep(m: Member, after: string, acc: seq<Member>)
    requires |after| > 0 && (after[0] == ',' || after[0] == '}')
    requires ParseValue(Serialize(m.1) + after) == Some((m.1, after))
    ensures ParseMembers(SerializeMember(m) + after, acc)
         == if after[0] == ',' then ParseMembers(after[1..], acc + [m]) else Some((Obj(acc + [m]), after[1..]))
  {
    ParseMemberKey(m, after, acc);
  }

  /** Proof helper: regrouping the text of several members. */
  lemma MembersTextStep(ms: seq<Member>, after: string)
    requires |ms| > 1
    ensures SerializeMembers(ms) + after == SerializeMember(ms[0]) + ("," + (SerializeMembers(ms[1..]) + after))
  {
    Regroup(SerializeMember(ms[0]), ",", SerializeMembers(ms[1..]), after);
  }

  /** The last written member of an object, then its closing brace. */
  lemma ParseLastMember(m: Member, acc: seq<Member>, rest: string)
    ensures ParseMembers(SerializeMember(m) + ("}" + rest), acc) == Some((Obj(acc + [m]), rest))
    decreases m, 1
  {
    var after := "}" + rest;
    ParseMemberValueText(m, after);
    ParseMemberStep(m, after, acc);
    assert after[1..] == rest;
  }

  /** A written member followed by a comma: reading goes on with the member recorded. */
  lemma ParseNextMember(m: Member, more: string, acc: seq<Member>)
    ensures ParseMembers(SerializeMember(m) + ("," + more), acc) == ParseMembers(more, acc + [m])
    decreases m, 1
  {
    var after := "," + more;
    ParseMemberValueText(m, after);
    ParseMemberStep(m, after, acc);
    assert after[1..] == more;
  }

  lemma {:induction false} ParseSerializeMembers(ms: seq<Member>, acc: seq<Member>, rest: string)
    requires |ms| > 0
    ensures ParseMembers(SerializeMembers(ms) + "}" + rest, acc) == Some((Obj(acc + ms), rest))
    decreases ms
  {
    Associate(SerializeMembers(ms), "}", rest);
    if |ms| == 1 {
      ParseLastMember(ms[0], acc, rest);
      assert acc + [ms[0]] == acc + ms;
    } else {
      MembersTextStep(ms, "}" + rest);
      Associate(SerializeMembers(ms[1..]), "}", rest);
      ParseNextMember(ms[0], SerializeMembers(ms[1..]) + "}" + rest, acc);
      ParseSerializeMembers(ms[1..], acc + [ms[0]], rest);
      assert acc + [ms[0]] + ms[1..] == acc + ms;
    }
  }

  /** The writer is injective: different trees never share a text. */
  lemma SerializeInjective(a: Json, b: Json)
    requires Serialize(a) == Serialize(b)
    ensures a == b
  {
    ParseSerialize(a, []);
    ParseSerialize(b, []);
    assert Serialize(a) + [] == Serialize(a);
    assert Serialize(b) + [] == Serialize(b);
  }

  /** The canonical text reads back as a document equivalent to the original. */
  lemma DumpsReadsBack(j: Json)
    ensures ParseJson(Dumps(j)).Some?
    ensures Equiv(ParseJson(Dumps(j)).value, j)
  {
    ParseSerialize(SortKeys(j), []);
    assert Dumps(j) + [] == Dumps(j);
    SortKeysEquiv(j);
    EquivSymmetric(j, SortKeys(j));
  }

  /**
   For documents whose dicts have distinct keys, two canonical texts are equal
   exactly when the documents are the same dictionary tree.
   */
  lemma DumpsEqualIffEquiv(a: Json, b: Json)
    requires WellFormed(a) && WellFormed(b)
    ensures Dumps(a) == Dumps(b) <==> Equiv(a, b)
  {
    if Dumps(a) == Dumps(b) {
      SerializeInjective(SortKeys(a), SortKeys(b));
      SortKeysEquiv(a);
      SortKeysEquiv(b);
      EquivSymmetric(b, SortKeys(b));
      EquivTransitive(a, SortKeys(a), b);
    }
    if Equiv(a, b) {
      DumpsOfEquiv(a, b);
    }
  }

  /**
   Lists are written in their own order, never sorted: two lists have the same
   canonical text exactly when they are equivalent position by position.
   */
  lemma ListOrderKept(xs: seq<Json>, ys: seq<Json>)
    requires WellFormed(Arr(xs)) && WellFormed(Arr(ys))
    ensures Dumps(Arr(xs)) == Dumps(Arr(ys)) <==> |xs| == |ys| && forall i :: 0 <= i < |xs| ==> Equiv(xs[i], ys[i])
  {
    DumpsEqualIffEquiv(Arr(xs), Arr(ys));
  }
}

=== FILE: traces.dfy ===
/**
 The string pieces around a grounding: the trace file name made from the
 timestamp, the one-line trace record written into it, the logic file name
 of a repository and the repository name recovered from a logic file name.
 */
module Traces {
  import opened Wrappers
  import opened JsonValue
  import opened StringEscape
  import opened Hashing
  import opened Grounding

  // ---------------------------------------------------------------------
  // Trace file names
  // ---------------------------------------------------------------------

  /** `ts.replace(":", "-")`. */
  function SafeTimestamp(ts: string): (r: string)
    ensures |r| == |ts|
    ensures forall i :: 0 <= i < |ts| ==> r[i] == (if ts[i] == ':' then '-' else ts[i])
  {
    if |ts| == 0 then []
    else [if ts[0] == ':' then '-' else ts[0]] + SafeTimestamp(ts[1..])
  }

  lemma SafeTimestampHasNoColon(ts: string)
    ensures ':' !in SafeTimestamp(ts)
  {
    var r := SafeTimestamp(ts);
    forall i | 0 <= i < |r| ensures r[i] != ':' {
    }
  }

  /** Making a timestamp safe twice is the same as making it safe once. */
  lemma SafeTimestampIdempotent(ts: string)
    ensures SafeTimestamp(SafeTimestamp(ts)) == SafeTimestamp(ts)
  {
    SafeTimestampHasNoColon(ts);
    var r := SafeTimestamp(ts);
    forall i | 0 <= i < |r| ensures SafeTimestamp(r)[i] == r[i] {
      assert r[i] != ':' by {
        assert r[i] in r;
      }
    }
  }

  /** The file name `{safe_ts}.txt` of the trace of a grounding at `ts`. */
  function TraceFileName(ts: string): (r: string)
    ensures |r| == |ts| + 4
    ensures r[..|ts|] == SafeTimestamp(ts)
    ensures r[|ts|..] == ".txt"
    ensures ':' !in r
  {
    SafeTimestampHasNoColon(ts);
    SafeTimestamp(ts) + ".txt"
  }

  /** Two groundings share a trace file exactly when their timestamps agree once made safe. */
  lemma TraceFileNameSameIff(a: string, b: string)
    ensures TraceFileName(a) == TraceFileName(b) <==> SafeTimestamp(a) == SafeTimestamp(b)
  {
    if TraceFileName(a) == TraceFileName(b) {
      assert |a| == |b|;
      assert TraceFileName(a)[..|a|] == TraceFileName(b)[..|b|];
    }
  }

  /**
   A timestamp and its colon-free form name the same trace file, so a trace
   written for one is overwritten by a trace written for the other.
   */
  lemma TraceFileNameShared(ts: string)
    ensures TraceFileName(SafeTimestamp(ts)) == TraceFileName(ts)
  {
    SafeTimestampIdempotent(ts);
  }

  // ---------------------------------------------------------------------
  // Trace records
  // ---------------------------------------------------------------------

  /** The fields of one trace line. */
  datatype Trace = Trace(timestamp: string, repo: string, core: string, instance: string)

  const CoreLabel: string := "] Core: "
  const InstanceLabel: string := " | Instance: "

  /** `f"[{ts}] [{repo}] Core: {integrity_hash} | Instance: {instance_hash}\n"`. */
  function TraceLine(t: Trace): (r: string)
    ensures |r| == |t.timestamp| + |t.repo| + |t.core| + |t.instance| + |CoreLabel| + |InstanceLabel| + 5
    ensures r[0] == '[' && r[|r| - 1] == '\n'
    ensures r[1..1 + |t.timestamp|] == t.timestamp
  {
    "[" + t.timestamp + "] [" + t.repo + CoreLabel + t.core + InstanceLabel + t.instance + "\n"
  }

  /** Everything after the repository name in a line whose hashes are 64 characters long. */
  const TailLength: nat := |CoreLabel| + 64 + |InstanceLabel| + 64 + 1

  /** The position of the first `c` in `s`, if any. */
  function FirstIndex(s: string, c: char): (r: Option<nat>)
    ensures r.Some? ==> r.value < |s| && s[r.value] == c && c !in s[..r.value]
    ensures r.None? ==> c !in s
  {
    if |s| == 0 then None
    else if s[0] == c then Some(0)
    else match FirstIndex(s[1..], c)
      case None => None
      case Some(i) =>
        assert s[..i + 1] == [s[0]] + s[1..][..i];
        Some(i + 1)
  }

  /** A `c` preceded by no other `c` is the first one. */
  lemma {:induction false} FirstIndexAt(s: string, c: char, i: nat)
    requires i < |s| && s[i] == c && c !in s[..i]
    ensures FirstIndex(s, c) == Some(i)
  {
    if i > 0 {
      assert s[0] == s[..i][0];
      assert s[1..][..i - 1] == s[..i][1..];
      assert c !in s[..i][1..] by {
        assert s[..i] == [s[0]] + s[..i][1..];
      }
      FirstIndexAt(s[1..], c, i - 1);
    }
  }

  /** Reads `[ts] [repo` into the timestamp and the repository name. */
  function SplitHead(head: string): Option<(string, string)>
  {
    if |head| == 0 || head[0] != '[' then None
    else
      var body := head[1..];
      match FirstIndex(body, ']')
      case None => None
      case Some(i) =>
        if i + 3 <= |body| && body[i..i + 3] == "] [" then Some((body[..i], body[i + 3..])) else None
  }

  /** Reads a trace line back into its fields. */
  function ParseTraceLine(line: string): Option<Trace>
  {
    if |line| < TailLength then None
    else
      var head := line[..|line| - TailLength];
      var tail := line[|line| - TailLength..];
      if tail[..8] != CoreLabel || tail[72..85] != InstanceLabel || tail[149] != '\n' then None
      else match SplitHead(head)
        case None => None
        case Some((ts, repo)) => Some(Trace(ts, repo, tail[8..72], tail[85..149]))
  }

  /** The head of a written line splits back into its timestamp and repository name. */
  lemma SplitHeadRoundTrip(ts: string, repo: string)
    requires ']' !in ts
    ensures SplitHead("[" + ts + "] [" + repo) == Some((ts, repo))
  {
    var head := "[" + ts + "] [" + repo;
    var body := head[1..];
    assert body == ts + "] [" + repo;
    assert body[..|ts|] == ts;
    FirstIndexAt(body, ']', |ts|);
    assert body[|ts|..|ts| + 3] == "] [";
    assert body[|ts| + 3..] == repo;
  }

  /** The tail of a written line carries its labels where the reader looks for them. */
  lemma TailRoundTrip(core: string, instance: string)
    requires |core| == 64 && |instance| == 64
    ensures var tail := CoreLabel + core + InstanceLabel + instance + "\n";
      |tail| == TailLength && tail[..8] == CoreLabel && tail[72..85] == InstanceLabel && tail[149] == '\n'
      && tail[8..72] == core && tail[85..149] == instance
  {
  }

  /** A trace line whose timestamp has no `]` and whose hashes are 64 characters reads back. */
  lemma TraceLineRoundTrip(t: Trace)
    requires ']' !in t.timestamp
    requires |t.core| == 64 && |t.instance| == 64
    ensures ParseTraceLine(TraceLine(t)) == Some(t)
  {
    var line := TraceLine(t);
    var head := "[" + t.timestamp + "] [" + t.repo;
    var tail := CoreLabel + t.core + InstanceLabel + t.instance + "\n";
    TraceLineParts(t);
    TailRoundTrip(t.core, t.instance);
    assert line[..|line| - TailLength] == head;
    assert line[|line| - TailLength..] == tail;
    SplitHeadRoundTrip(t.timestamp, t.repo);
  }

  /** Proof helper: a trace line is its head, up to the repository name, followed by its fixed-length tail. */
  lemma TraceLineParts(t: Trace)
    ensures TraceLine(t) == ("[" + t.timestamp + "] [" + t.repo) + (CoreLabel + t.core + InstanceLabel + t.instance + "\n")
  {
  }

  /** Proof helper: cutting a text at two positions and gluing the pieces back gives the text. */
  lemma SliceThree(s: string, i: nat, j: nat)
    requires i <= j <= |s|
    ensures s == s[..i] + s[i..j] + s[j..]
  {
  }

  /** A head the reader splits is rebuilt from the two fields it yields. */
  lemma SplitHeadExact(head: string, ts: string, repo: string)
    requires SplitHead(head) == Some((ts, repo))
    ensures head == "[" + ts + "] [" + repo
    ensures ']' !in ts
  {
    var body := head[1..];
    var i := FirstIndex(body, ']').value;
    assert i + 3 <= |body| && body[i..i + 3] == "] [";
    assert ts == body[..i] && repo == body[i + 3..];
    SliceThree(body, i, i + 3);
    assert head == [head[0]] + body;
    assert [head[0]] == "[";
    Regroup("[", ts, "] [", repo);
    Associate(ts, "] [", repo);
  }

  /** A tail the reader accepts is rebuilt from its labels and the two hashes it yields. */
  lemma TailExact(tail: string)
    requires |tail| == TailLength
    requires tail[..8] == CoreLabel && tail[72..85] == InstanceLabel && tail[149] == '\n'
    ensures tail == CoreLabel + tail[8..72] + InstanceLabel + tail[85..149] + "\n"
  {
    assert tail == tail[..8] + tail[8..72] + tail[72..85] + tail[85..149] + [tail[149]];
  }

  /** Every line the reader accepts is exactly the line written for what it read. */
  lemma ParseTraceLineExact(line: string, t: Trace)
    requires ParseTraceLine(line) == Some(t)
    ensures TraceLine(t) == line
    ensures ']' !in t.timestamp
    ensures |t.core| == 64 && |t.instance| == 64
  {
    var head := line[..|line| - TailLength];
    var tail := line[|line| - TailLength..];
    SplitHeadExact(head, t.timestamp, t.repo);
    TailExact(tail);
    TraceLineParts(t);
    assert line == head + tail;
  }

  /** The trace recorded for a grounding of `fs` at `ts` for repository `repo`. */
  function GroundingTrace(sha: seq<byte> -> Digest, fs: seq<Member>, ts: string, repo: string): (r: Trace)
    ensures r.timestamp == ts && r.repo == repo
    ensures r.core == GenerateHash(sha, fs, true)
    ensures Lookup(Ground(sha, fs, ts), IntegrityHash) == Some(Str(r.core))
    ensures Lookup(Ground(sha, fs, ts), InstanceHash) == Some(Str(r.instance))
    ensures r.instance == GenerateHash(sha, Stamp(sha, fs, ts), false)
    ensures |r.core| == 64 && |r.instance| == 64
  {
    var instance := Ground(sha, fs, ts);
    Trace(
      Lookup(instance, TemporalGrounding).value.s,
      repo,
      Lookup(instance, IntegrityHash).value.s,
      Lookup(instance, InstanceHash).value.s)
  }

  /** The trace of a grounding reads back from its line whenever the timestamp has no `]`. */
  lemma GroundingTraceReadsBack(sha: seq<byte> -> Digest, fs: seq<Member>, ts: string, repo: string)
    requires ']' !in ts
    ensures ParseTraceLine(TraceLine(GroundingTrace(sha, fs, ts, repo))) == Some(GroundingTrace(sha, fs, ts, repo))
  {
    TraceLineRoundTrip(GroundingTrace(sha, fs, ts, repo));
  }

  // ---------------------------------------------------------------------
  // Logic file names and repository names
  // ---------------------------------------------------------------------

  const LogicSuffix: string := "-core-logic.json"

  /** `f"{repo_name}-core-logic.json"`. */
  function LogicFileName(repo: string): (r: string)
    ensures |r| == |repo| + |LogicSuffix|
    ensures r[..|repo|] == repo && r[|repo|..] == LogicSuffix
  {
    repo + LogicSuffix
  }

  /** `p` occurs in `s` starting at position `i`. */
  predicate OccursAt(s: string, p: string, i: nat)
  {
    i + |p| <= |s| && s[i..i + |p|] == p
  }

  predicate Contains(s: string, p: string)
  {
    exists i: nat :: i <= |s| && OccursAt(s, p, i)
  }

  /**
   `name.replace("-core-logic.json", "")`: every occurrence is removed,
   scanning left to right without overlaps.
   */
  function RepoName(name: string): (r: string)
    ensures |r| <= |name|
    decreases |name|
  {
    if |name| < |LogicSuffix| then name
    else if name[..|LogicSuffix|] == LogicSuffix then RepoName(name[|LogicSuffix|..])
    else [name[0]] + RepoName(name[1..])
  }

  /** No proper suffix of the pattern is also a prefix of it. */
  lemma SuffixHasNoBorder(m: nat)
    requires 0 < m < |LogicSuffix|
    ensures LogicSuffix[m..] != LogicSuffix[..|LogicSuffix| - m]
  {
    if m == 5 {
      assert LogicSuffix[m..][1] != LogicSuffix[..|LogicSuffix| - m][1];
    } else {
      assert LogicSuffix[m] != '-';
      assert LogicSuffix[m..][0] != LogicSuffix[..|LogicSuffix| - m][0];
    }
  }

  /** A non-empty text free of the pattern, followed by the pattern, does not start with it. */
  lemma NoPatternAtStart(x: string, y: string)
    requires |x| > 0 && !Contains(x, LogicSuffix)
    ensures (x + LogicSuffix + y)[..|LogicSuffix|] != LogicSuffix
  {
    var s := x + LogicSuffix + y;
    var n := |LogicSuffix|;
    if |x| >= n {
      assert s[..n] == x[0..n];
      assert !OccursAt(x, LogicSuffix, 0);
    } else {
      SuffixHasNoBorder(|x|);
      assert s[..n][|x|..] == LogicSuffix[..n - |x|];
    }
  }

  lemma NoPatternInTail(x: string)
    requires |x| > 0 && !Contains(x, LogicSuffix)
    ensures !Contains(x[1..], LogicSuffix)
  {
    var n := |LogicSuffix|;
    forall i: nat | i <= |x[1..]| ensures !OccursAt(x[1..], LogicSuffix, i) {
      assert !OccursAt(x, LogicSuffix, i + 1);
      if i + n <= |x[1..]| {
        assert x[1..][i..i + n] == x[i + 1..i + 1 + n];
      }
    }
  }

  /** Where the pattern does not start the text, its first character is kept. */
  lemma RepoNameKeepsFirst(s: string)
    requires |s| >= |LogicSuffix| && s[..|LogicSuffix|] != LogicSuffix
    ensures RepoName(s) == [s[0]] + RepoName(s[1..])
  {
  }

  /** The pattern at the start of a text is removed. */
  lemma RepoNameDropsLeading(y: string)
    ensures RepoName(LogicSuffix + y) == RepoName(y)
  {
    var s := LogicSuffix + y;
    assert s[..|LogicSuffix|] == LogicSuffix;
    assert s[|LogicSuffix|..] == y;
  }

  /** Proof helper: the first character and the rest of a concatenation whose left part is not empty. */
  lemma ConcatHead(x: string, z: string)
    requires |x| > 0
    ensures (x + z)[0] == x[0] && (x + z)[1..] == x[1..] + z
  {
  }

  /** A text free of the pattern, then the pattern, then anything: the first part survives. */
  lemma {:induction false} RepoNameSkipsPrefix(x: string, y: string)
    requires !Contains(x, LogicSuffix)
    ensures RepoName(x + LogicSuffix + y) == x + RepoName(y)
  {
    var z := LogicSuffix + y;
    Associate(x, LogicSuffix, y);
    if |x| == 0 {
      assert x + z == z;
      RepoNameDropsLeading(y);
    } else {
      NoPatternAtStart(x, y);
      NoPatternInTail(x);
      RepoNameSkipsPrefix(x[1..], y);
      Associate(x[1..], LogicSuffix, y);
      ConcatHead(x, z);
      RepoNameKeepsFirst(x + z);
      Associate([x[0]], x[1..], RepoName(y));
      assert [x[0]] + x[1..] == x;
    }
  }

  /** Text without the pattern is left as it is. */
  lemma {:induction false} RepoNamePatternFree(s: string)
    requires !Contains(s, LogicSuffix)
    ensures RepoName(s) == s
  {
    if |s| >= |LogicSuffix| {
      assert !OccursAt(s, LogicSuffix, 0);
      NoPatternInTail(s);
      RepoNamePatternFree(s[1..]);
      RepoNameKeepsFirst(s);
      assert [s[0]] + s[1..] == s;
    }
  }

  /**
   For a repository name that does not contain the pattern, the name read
   from its logic file name is the name itself.
   */
  lemma RepoNameRoundTrip(repo: string)
    requires !Contains(repo, LogicSuffix)
    ensures RepoName(LogicFileName(repo)) == repo
  {
    RepoNameSkipsPrefix(repo, []);
    assert repo + LogicSuffix + [] == LogicFileName(repo);
  }

  /**
   A file name holding the pattern twice loses both: `a-core-logic.json-b-core-logic.json`
   is listed as `a-b`, whose own logic file name is a different file.
   */
  lemma RepoNameDropsInnerPattern(a: string, b: string)
    requires !Contains(a, LogicSuffix) && !Contains(b, LogicSuffix)
    ensures RepoName(LogicFileName(a) + LogicFileName(b)) == a + b
    ensures LogicFileName(RepoName(LogicFileName(a) + LogicFileName(b))) != LogicFileName(a) + LogicFileName(b)
  {
    RepoNameSkipsPrefix(a, LogicFileName(b));
    assert LogicFileName(a) + LogicFileName(b) == a + LogicSuffix + LogicFileName(b);
    RepoNameRoundTrip(b);
  }

  predicate EndsWith(s: string, p: string)
  {
    |p| <= |s| && s[|s| - |p|..] == p
  }

  /**
   `list_available_repos`: `listing` is the directory's entries in the order
   the directory scan yields them, or `None` when the directory is missing.
   Entries matching `*-core-logic.json` are kept and mapped to their names.
   */
  function ListAvailableRepos(listing: Option<seq<string>>): (r: seq<string>)
    ensures listing.None? ==> r == []
    ensures listing.Some? ==> |r| <= |listing.value|
  {
    match listing
    case None => []
    case Some(names) => RepoNamesOf(names)
  }

  function RepoNamesOf(names: seq<string>): (r: seq<string>)
    ensures |r| <= |names|
  {
    if |names| == 0 then [] else Listed(names[0]) + RepoNamesOf(names[1..])
  }

  /** What one directory entry contributes to the listing: its repository name, or nothing. */
  function Listed(name: string): (r: seq<string>)
    ensures |r| <= 1
    ensures |r| == 1 <==> EndsWith(name, LogicSuffix)
    ensures |r| == 1 ==> r[0] == RepoName(name)
  {
    if EndsWith(name, LogicSuffix) then [RepoName(name)] else []
  }

  /** The logic file of each repository, in order. */
  function LogicFileNames(repos: seq<string>): (r: seq<string>)
    ensures |r| == |repos|
    ensures forall i :: 0 <= i < |repos| ==> r[i] == LogicFileName(repos[i])
  {
    if |repos| == 0 then [] else [LogicFileName(repos[0])] + LogicFileNames(repos[1..])
  }

  /**
   A directory holding exactly the logic files of some repositories whose names
   do not contain the pattern lists exactly those repositories, in scan order.
   */
  lemma {:induction false} ListAvailableReposRoundTrip(repos: seq<string>)
    requires forall i :: 0 <= i < |repos| ==> !Contains(repos[i], LogicSuffix)
    ensures ListAvailableRepos(Some(LogicFileNames(repos))) == repos
  {
    var names := LogicFileNames(repos);
    if |repos| > 0 {
      ListAvailableReposRoundTrip(repos[1..]);
      assert names[1..] == LogicFileNames(repos[1..]);
      ListedLogicFile(repos[0]);
      assert [repos[0]] + repos[1..] == repos;
    }
  }

  /**
   An entry holding the pattern twice is listed with both occurrences removed:
   `a-core-logic.json-b-core-logic.json` is listed as `a-b`.
   */
  lemma ListedDoubled(a: string, b: string)
    requires !Contains(a, LogicSuffix) && !Contains(b, LogicSuffix)
    ensures Listed(LogicFileName(a) + LogicFileName(b)) == [a + b]
  {
    var name := LogicFileName(a) + LogicFileName(b);
    assert name[|name| - |LogicSuffix|..] == LogicFileName(b)[|b|..];
    RepoNameDropsInnerPattern(a, b);
  }

  /** Proof helper: the logic file of a pattern-free name is listed as that name. */
  lemma ListedLogicFile(repo: string)
    requires !Contains(repo, LogicSuffix)
    ensures Listed(LogicFileName(repo)) == [repo]
  {
    RepoNameRoundTrip(repo);
    assert EndsWith(LogicFileName(repo), LogicSuffix);
  }

  /** Listing two runs of entries one after the other lists each run in turn. */
  lemma {:induction false} RepoNamesOfAppend(xs: seq<string>, ys: seq<string>)
    ensures RepoNamesOf(xs + ys) == RepoNamesOf(xs) + RepoNamesOf(ys)
  {
    if |xs| == 0 {
      assert xs + ys == ys;
    } else {
      assert (xs + ys)[0] == xs[0] && (xs + ys)[1..] == xs[1..] + ys;
      RepoNamesOfAppend(xs[1..], ys);
    }
  }

  /** An entry that does not end in the pattern is not listed, wherever it stands. */
  lemma ListIgnoresOtherFiles(xs: seq<string>, other: string, ys: seq<string>)
    requires !EndsWith(other, LogicSuffix)
    ensures ListAvailableRepos(Some(xs + [other] + ys)) == ListAvailableRepos(Some(xs + ys))
  {
    var front := xs + [other];
    RepoNamesOfAppend(front, ys);
    RepoNamesOfAppend(xs, [other]);
    RepoNamesOfAppend(xs, ys);
    UnlistedEntry(other);
    assert RepoNamesOf(front) == RepoNamesOf(xs) + [];
    assert RepoNamesOf(xs) + [] == RepoNamesOf(xs);
  }

  /** Proof helper: an entry without the logic suffix lists nothing on its own. */
  lemma UnlistedEntry(other: string)
    requires !EndsWith(other, LogicSuffix)
    ensures RepoNamesOf([other]) == []
  {
    assert [other][1..] == [];
  }
}

=== FILE: wrappers.dfy ===
/** Failure-carrying result types shared by the whole model. */
module Wrappers {

  /** A value that may be absent: a dictionary lookup, a parse that may fail. */
  datatype Option<+T> = None | Some(value: T)

  /** The outcome of an operation that raises in the original program. */
  datatype Result<+R, +E> = Success(value: R) | Failure(error: E)
}
